=== FILE: README.md ===
# Weather effects, message dialog and epithets window — a Dafny model

This project models four pieces of a city-builder's user interface layer:

- **The weather engine** of `src/graphics/weather.c`. It covers:
  - the engine state and its lazy particle allocation (`update_weather`, `weather_stop`, `set_weather`);
  - the particle seeding (`init_weather_element`);
  - the snow, sandstorm and rain passes: motion, recycle rules and the number of line segments written to the shared 10000-entry `line_buffer`;
  - the wind, and the lightning flash/cooldown machine with its thunder cue;
  - the full-screen tint overlay with its fader, and the ARGB alpha packing;
  - the monthly weather roll `city_weather_update`.
- **The older rain-only engine** of `src/graphics/rain.c`. It has integer drops, `rain_stop`, the lazily allocating `rain_draw`, gated lightning and `set_rain_intensity`. The drop block records its own length, so an index past the allocation becomes an explicit `OutOfBounds` outcome instead of undefined behaviour.
- **The message dialog's logic** in `src/window/message_dialog.c`. It covers:
  - the bounded back-history of followed links;
  - the 400 ms popup protection;
  - closing on Back;
  - the go-to-problem map guard;
  - the music volume chosen next to speech;
  - the classifiers deciding which buttons a message offers.
- **The epithets window** of `src/window/epithets.c`. It covers:
  - god selection;
  - the `selected * 3 + i` reads from its 18-entry table;
  - the tooltip mapping and the focus rule.

Everything is a pure function over immutable records. `float` becomes `real` and C's float-to-int conversion becomes an explicit truncation (`Common.Trunc`). `sinf` is any function bounded by [-1, 1] (`Common.Wave`). Every random value, the clock, the screen size and the answers of the sound and video devices are explicit parameters. A heap block is `Common.Buffer`: null or a sequence with its length.

Modules:
- `Common`, `Wrappers`: shared vocabulary.
- `Wind`, `Lightning`: shared by both weather engines.
- `WeatherElement`, `WeatherParticles`, `WeatherOverlay`, `Argb`, `WeatherController`: weather.c.
- `LegacyRain`: rain.c.
- `MessageDialog`, `Epithets`: the two windows.

## Behaviour of the code worth knowing

Facts about the code as written that the model keeps:
- **Sand speed.** `init_weather_element` computes `1.5 + k/50` but stores it in an `int` field, so the speed is 1, 2 or 3. See `WeatherElement.SandSpeedIsTruncated`. A grain of speed 1 can stand still for ever (`WeatherParticles.GrainCanStall`).
- **Thunder.** It plays when the timer reads 5 *after* the flash decrement. A 5-frame flash is therefore silent, and flashes of 6 to 9 frames thunder once (`Lightning.ThunderOnlyForLongFlashes`).
- **Lightning cooldown.** It counts down on every frame without a new flash, including frames of a running flash.
- **Wind drift.** `(int)` truncates it toward zero.
- **Rain wind variation.** It reaches at most 0.735.

## Model

| member | source | states |
|---|---|---|
| Common.Count | src/graphics/weather.c:211 | a `for (i = 0; i < n; ++i)` loop runs the least non-negative number of times that is at least `n`: `n` times, or none for `n <= 0` |
| Common.CDiv | src/window/message_dialog.c:217 | C's integer division: quotient times divisor leaves a remainder below the divisor, with the sign of the dividend |
| Common.Trunc | src/graphics/weather.c:152 | the `(int)` conversion of a float truncates toward zero: the result is within one of the value, on the side of zero |
| Wind.UpdateWind | src/graphics/weather.c:149-153 | the angle grows by 0.05; the drift is `2 * sin` of the new angle truncated toward zero: same sign, within one of it, in [-2, 2], and 0 exactly when it lies strictly between -1 and 1 |
| Argb.ApplyAlpha | src/graphics/weather.c:116-119 | the top byte of the result is the alpha, the low 24 bits are the colour's RGB |
| Argb.ChannelsDetermineColor | src/graphics/weather.c:118 | a 32-bit colour is determined by its alpha byte and its RGB bits |
| Argb.ApplyOwnAlpha | src/graphics/weather.c:118 | packing a colour's own alpha gives the colour back |
| Argb.ApplyAlphaOverwrites | src/graphics/weather.c:118 | packing twice keeps only the last alpha |
| Lightning.Armed | src/graphics/weather.c:128-133 | a flash starts only with the cooldown run out and a roll divisible by 500; it then lasts 5..9 frames with a 300..699 cooldown; otherwise a positive cooldown counts down by one |
| Lightning.Advance | src/graphics/weather.c:135-139 | the flash is drawn exactly when the armed timer is positive, which then drops by one; reachable states stay reachable |
| Lightning.StormFrame | src/graphics/weather.c:141-146 | thunder plays exactly when the armed timer was 6, i.e. the timer reads 5 after the frame |
| Lightning.NoTriggerDuringFlash | src/graphics/weather.c:128-133 | while a flash runs no new flash can start, because the cooldown is never below the timer |
| Lightning.FlashRunsOut | src/graphics/weather.c:126-146 | a running flash ends after exactly `timer` frames, whatever is drawn, with thunder once if it had 6 or more frames left |
| Lightning.ThunderOnlyForLongFlashes | src/graphics/weather.c:128-146 | a flash started from rest is followed by exactly one thunder cue when it lasts 6..9 frames and none when it lasts 5 |
| WeatherElement.Init | src/graphics/weather.c:81-102 | the particle lands on screen with its type's attribute ranges, and every field that type does not seed is kept |
| WeatherElement.SandSpeedIsTruncated | src/graphics/weather.c:98 | the sand speed is 1 for a quarter of the draws, 2 for half, 3 for a quarter |
| WeatherOverlay.Fade | src/graphics/weather.c:155-171 | the alpha moves 0.01 toward the target and never past it, the target is kept, and the fade-out flag is cleared only when a downward step is clamped |
| WeatherOverlay.FadeAtTargetIsIdentity | src/graphics/weather.c:159-170 | an alpha at its target stays, flag and all |
| WeatherOverlay.FadeConverges | src/graphics/weather.c:155-171 | the alpha reaches the target after at most distance/0.01 steps |
| WeatherOverlay.FadeoutStuckOnExactLanding | src/graphics/weather.c:164-169 | when every step lands exactly (alpha a multiple of 0.01 above a zero target) the fade-out flag is never cleared |
| WeatherOverlay.AlphaFactor | src/graphics/weather.c:181-190 | no tint for rain below 800, 0.2 for snow and rain 800..899, 0.4 for heavier rain and sand |
| WeatherOverlay.AlphaByte | src/graphics/weather.c:192 | the overlay alpha byte is at most 102 (0.4 * 255), and 0 for a zero factor |
| WeatherOverlay.TintFor | src/graphics/weather.c:195-201 | rain, snow and sand each get their own overlay colour; type NONE keeps the previous one |
| WeatherOverlay.TintsDistinct | src/graphics/weather.c:195-201 | different weather types never share an overlay colour |
| WeatherOverlay.Render | src/graphics/weather.c:173-205 | the fader always steps; a fill is drawn exactly while weather is active or a fade-out is latched, in the colour of the weather type and with the alpha byte of that type's factor times the faded alpha (never above 102, 0 for light rain) |
| WeatherOverlay.FadedOverlayStaysHidden | src/graphics/weather.c:173-180 | once inactive weather has faded out with the flag clear, no later frame draws the overlay and the colour is kept |
| WeatherParticles.BaseSpeed | src/graphics/weather.c:269-270 | the rain base speed is at least 3 plus the wind strength |
| WeatherParticles.StepSnowflake | src/graphics/weather.c:212-233 | a flake stays seeded and on screen; a flake that left is reseeded at the top, otherwise it fell by at least one pixel |
| WeatherParticles.SnowPass | src/graphics/weather.c:207-237 | flake `i` is the result of stepping the `i`-th flake with the `i`-th random draws; every flake stays seeded and on screen; two segments are written per flake |
| WeatherParticles.SnowflakeRecycles | src/graphics/weather.c:214-233 | a flake is reseeded within `bound` frames on screens at most `bound` high |
| WeatherParticles.StepGrain | src/graphics/weather.c:245-258 | a grain that crossed the right edge restarts at x = 0, otherwise it did not move left and stays in its row |
| WeatherParticles.SandPass | src/graphics/weather.c:239-261 | grain `i` is the result of stepping the `i`-th grain with the `i`-th random draws; every grain stays seeded; one segment is written per grain |
| WeatherParticles.GrainCanStall | src/graphics/weather.c:245-246 | a grain of speed 1 under a wave of -1 does not move and is never reseeded |
| WeatherParticles.StepDrop | src/graphics/weather.c:275-291 | a drop stays seeded and on screen; a drop that left is reseeded at the top, otherwise it fell by at least 6.5 pixels and kept its length |
| WeatherParticles.RainPass | src/graphics/weather.c:263-294 | drop `i` is the result of stepping the `i`-th drop under the frame's wind and base speed with the `i`-th draws; every drop stays seeded and on screen; one segment is written per drop |
| WeatherParticles.DropRecycles | src/graphics/weather.c:285-291 | a drop is reseeded within bound/6.5 frames on screens at most `bound` high, whatever the wind does |
| WeatherParticles.SnowSegmentsFit | src/graphics/weather.c:21-23 | a snow pass fits the 10000-segment line buffer exactly when there are at most 5000 flakes |
| WeatherController.StartIsValid | src/graphics/weather.c:62-79 | the static initial state is a reachable state |
| WeatherController.Stop | src/graphics/weather.c:104-114 | weather is deactivated, the particles are released and initialisation is forgotten; nothing else changes |
| WeatherController.StopIdempotent | src/graphics/weather.c:104-114 | stopping twice equals stopping once |
| WeatherController.SetWeatherAsWritten | src/graphics/weather.c:338-354 | the configuration is stored and the particles released, but the fade-out flag never changes; the target follows `active`; alpha, lightning, wind and colour are kept; reachable states stay reachable |
| WeatherController.SetWeather | src/graphics/weather.c:338-354 | the configuration is stored verbatim, the particles are released, the target is 1 iff active, and the fade-out is latched iff running weather is switched off |
| WeatherController.FadeoutLatchDiffers | src/graphics/weather.c:340-343 | switching running weather off latches the fade-out only in the corrected version |
| WeatherController.Allocate | src/graphics/weather.c:311-317 | the lazy allocation creates exactly `intensity` seeded particles and changes nothing else |
| WeatherController.DrawRain | src/graphics/weather.c:263-299 | below intensity 500 the wind takes one `update_wind` step, otherwise it is kept; the drops are the rain pass under that wind; one segment per drop; lightning advances only above intensity 800, with its flash and thunder; nothing else changes |
| WeatherController.UpdateWeather | src/graphics/weather.c:301-336 | the overlay is rendered and faded; disabled, NONE or inactive weather is stopped with nothing drawn; otherwise the particles (allocated now or kept) are moved by the pass of the current type, which writes its segments, snow and sand leave lightning and wind alone, rain steers the wind and runs lightning as `draw_rain` does; flashes happen only in heavy rain |
| WeatherController.SetThenUpdateAllocates | src/graphics/weather.c:311-317 | the first frame after switching weather on allocates exactly `intensity` particles |
| WeatherController.DeactivateThenUpdateDropsOverlay | src/graphics/weather.c:303-308 | with `set_weather` as written, the frame after switching running weather off frees the particles, draws none, and draws no overlay at all |
| WeatherController.IntendedDeactivateThenUpdateFades | src/graphics/weather.c:303-308 | with the corrected `set_weather`, that frame frees the particles, draws none, and still draws the fading overlay |
| WeatherController.ChancePercentOdds | src/graphics/weather.c:121-124 | for `percent` in 0..100, exactly `percent` of the 100 equally likely draws come out true |
| WeatherController.RollWeather | src/graphics/weather.c:356-380 | desert: 10% sandstorm at 5000; elsewhere: 20% weather, in November to March snow exactly on an odd coin flip, otherwise rain; rain takes the 100..1000 draw and snow the 1000..5000 draw; no weather is NONE at intensity 0 |
| WeatherController.WinterCoinPicksSnow | src/graphics/weather.c:362-374 | in winter the coin flip alone decides between rain and snow of the drawn amount, and the desert never rolls either |
| WeatherController.CityWeatherUpdate | src/graphics/weather.c:356-383 | the rolled weather is passed to `set_weather` as written: it is stored, the particles are released, the target follows the roll, the fade-out flag, alpha, lightning, wind and colour are untouched, and the state stays reachable |
| WeatherController.IntendedCityWeatherUpdate | src/graphics/weather.c:356-383 | over the corrected `set_weather` the same roll also latches the fade-out when running weather rolls none |
| WeatherController.RolledWeatherFitsLineBuffer | src/graphics/weather.c:370-374 | no frame after a rolled weather change writes more than 10000 segments |
| LegacyRain.StartIsValid | src/graphics/rain.c:22-33 | the static initial state is a reachable state |
| LegacyRain.InitDrop | src/graphics/rain.c:36-41 | a fresh drop starts at the top edge, on screen, with length 10..19 and speed 4..8 |
| LegacyRain.RainStop | src/graphics/rain.c:43-48 | rain is disabled and the drops are released; the intensity and lightning are kept |
| LegacyRain.RainStopIdempotent | src/graphics/rain.c:43-48 | stopping twice equals stopping once |
| LegacyRain.UpdateLightning | src/graphics/rain.c:50-65 | the machine runs only for active rain above intensity 800 and is frozen otherwise |
| LegacyRain.StepDrop | src/graphics/rain.c:98-103 | a drop that left through the bottom or right edge is reseeded at the top, otherwise it moved by the wind and fell by its speed plus 5 |
| LegacyRain.AllocateDrops | src/graphics/rain.c:79-85 | the first frame allocates exactly `intensity` seeded drops |
| LegacyRain.MoveDrops | src/graphics/rain.c:90-104 | drop `i` below `intensity` is the `i`-th drop stepped with the `i`-th draws, the rest of the block is untouched, and the length is kept |
| LegacyRain.RainDraw | src/graphics/rain.c:73-105 | disabled rain stops; otherwise the block (allocated now or earlier) is moved drop by drop under the new wind, the lightning takes the gated step, and the frame runs past the block exactly when the intensity exceeds the length allocated earlier |
| LegacyRain.SetRainIntensityAsWritten | src/graphics/rain.c:107-114 | the intensity is clamped to [0, 1000]; nothing else changes |
| LegacyRain.RaisedIntensityOverruns | src/graphics/rain.c:107-114 | raising the intensity after the first frame makes the next frame index drop 200, past the block |
| LegacyRain.SetRainIntensity | src/graphics/rain.c:107-114 | the intensity is clamped to [0, 1000] and the drops are released so the next frame allocates the new size |
| LegacyRain.SetRainIntensityIdempotent | src/graphics/rain.c:107-114 | setting the clamped intensity again changes nothing |
| LegacyRain.ValidDrawStaysInBounds | src/graphics/rain.c:90 | from every state whose drop block matches the intensity (reachable when only the corrected `SetRainIntensity` changes it) a frame indexes only inside the drop block |
| LegacyRain.DropRecycles | src/graphics/rain.c:98-103 | a drop falls at least 9 pixels a frame and is reseeded within bound/9 + 1 frames |
| MessageDialog.Init | src/window/message_dialog.c:267-296 | every history slot is zeroed and the count is 0; the text shows from the top; a video is shown exactly for popups whose video starts |
| MessageDialog.ClickLink | src/window/message_dialog.c:770-781 | a link pushes the current page and scroll onto the trail while fewer than 199 entries are stored, and always shows the target from the top; the popup timer and everything else outside the history and view are kept |
| MessageDialog.Back | src/window/message_dialog.c:812-820 | Back pops the last trail entry and shows its page and scroll; with an empty trail nothing changes; the stored history slots, the popup timer and everything else are kept |
| MessageDialog.LinkThenBack | src/window/message_dialog.c:772-817 | following a link and pressing Back restores page, scroll position and trail |
| MessageDialog.FullHistoryForgets | src/window/message_dialog.c:772 | with 199 entries stored a followed link is not remembered, so Back skips the page it was followed from |
| MessageDialog.SetCityMessage | src/window/message_dialog.c:127-141 | the message is stored; the display time is reset to now exactly for popups |
| MessageDialog.CanSkipPopup | src/window/message_dialog.c:785-792 | a popup may be skipped only when at least 401 ms passed since it was displayed |
| MessageDialog.SkippableStaysSkippable | src/window/message_dialog.c:785-792 | once a popup may be skipped it stays skippable at every later time |
| MessageDialog.PopupProtected | src/window/message_dialog.c:785-792 | after a popup is set, Back may dismiss it only more than 400 ms later; a message without popup leaves the timer alone |
| MessageDialog.Cleanup | src/window/message_dialog.c:822-836 | the video stops and the message's advisor is forgotten |
| MessageDialog.ButtonClose | src/window/message_dialog.c:838-847 | a custom message showing its video switches to its text; anything else is cleaned up and closes |
| MessageDialog.BackRequested | src/window/message_dialog.c:805-807 | only an unhandled Back request after the popup protection closes the dialog |
| MessageDialog.IsEventMessage | src/window/message_dialog.c:303-309 | a text is an event message exactly when it is a city message of type disaster, invasion or building completion |
| MessageDialog.Buttons | src/window/message_dialog.c:669-707 | close is always offered; the problem button exactly for disaster, invasion and building-completion messages; Back only on manual pages with history |
| MessageDialog.HiddenBackIsHarmless | src/window/message_dialog.c:747-750 | the Back button of a manual page reacts even when hidden, but then does nothing |
| MessageDialog.GoToProblem | src/window/message_dialog.c:863-878 | an invasion's own tile replaces `param2` only when positive; the view moves only to a tile strictly between 0 and 26244 |
| MessageDialog.InitSpeech | src/window/message_dialog.c:204-225 | music plays exactly when flagged, never above its setting, at 100 or a third of the speech volume under speech; the fade-out hook is set exactly when speech and music both started |
| MessageDialog.MusicDuckedUnderSpeech | src/window/message_dialog.c:215-221 | under speech the music is at most a third of the speech volume, and for settings within 0..100 never louder than without speech |
| MessageDialog.MessageImage | src/window/message_dialog.c:436-446 | no image gives 0, the about page (text 0) the fixed portrait, otherwise the message images counted from 1 |
| MessageDialog.MessageImagesDistinct | src/window/message_dialog.c:444 | different message images never share a picture |
| Epithets.TableLayout | src/window/epithets.c:27-100 | row `3 * g + l` of the table holds the heading and description of level `l` of god `g` |
| Epithets.Init | src/window/epithets.c:121-124 | the selection resets to the first god and nothing else changes |
| Epithets.ButtonGodAsWritten | src/window/epithets.c:192-196 | the selection becomes the clicked button's index, one of 0..6 |
| Epithets.ButtonGod | src/window/epithets.c:192-196 | with one button per god the selection becomes a god's index |
| Epithets.DrawForeground | src/window/epithets.c:176-185 | the three reads stay in the table exactly when the selection names a god, and then give that god's three headings and descriptions |
| Epithets.SeventhButtonOverruns | src/window/epithets.c:108-116 | clicking the seventh button makes the next frame read entry 18 of the 18-entry table |
| Epithets.Clicks | src/window/epithets.c:192-196 | after a series of clicks on the seven buttons the selection is the last button clicked, one of 0..6, and nothing else changes |
| Epithets.ClicksStayInTable | src/window/epithets.c:176-180 | after clicks from `init` the table is read inside its bounds exactly when the last click was on one of the six gods; a last click on the seventh button reads entry 18 |
| Epithets.GetTooltip | src/window/epithets.c:203-224 | nothing changes without focus; the close button shows text 2; god button k (1..6) shows the k-th god's tooltip; other ids set no key |
| Epithets.TooltipsDistinct | src/window/epithets.c:216-223 | different god buttons never share a tooltip |
| Epithets.TooltipMatchesSelection | src/window/epithets.c:216-223 | the tooltip of the hovered god button names the god a click on it selects |
| Epithets.HandleInput | src/window/epithets.c:226-239 | focus on the close button clears the god focus; a click on any of the seven buttons selects its index; the window closes on the close button or an unhandled Back |
| Epithets.CloseFocusHidesGodTooltip | src/window/epithets.c:232-234 | while the close button has focus no god tooltip key is written |

## Left out

- Drawing is left out because it is pure rendering with no state. This covers lines, rectangles, panels, images, text, rich-text layout and coordinates. The model keeps only what a frame emits: the overlay fill, the flash flag and the segment count.
- Sound and video are left out: thunder file names, `sound_device_*`, `video_*` and `init_audio`. Their outcomes that matter are parameters, such as whether speech or music started.
- `srand(time(NULL))`, `time_get_millis` and `screen_width`/`screen_height` are left out. Seeding, the clock and the screen size are parameters.
- Failure of `malloc` is not modelled. Zero intensity allocates an empty block.
- Floating point is modelled as exact reals. Rounding in the fader, for example, is not modelled, which is why `FadeoutStuckOnExactLanding` is a quirk of exact steps rather than a finding.
- `random_between_from_stdlib(lo, hi)` is modelled as inclusive of both ends. The random module is not part of this model.
- The colour constants (`COLOR_RAIN` and the others) are modelled as symbolic tints. Their values live in a header that is not part of this model.
- WeatherController.SetWeather: takes `active` as a boolean. Its only caller passes the 0/1 result of `chance_percent`.
- MessageDialog.CanSkipPopup: uses unbounded integers. The width of `time_millis` and the wrap-around of `displayed + 400` are not modelled, because that type is not part of this model.
- MessageDialog.InitSpeech: treats the sound device's answers as booleans. The source combines them with `&=`, which matches only for 0/1 answers.
- Argb.ApplyAlpha: shifting a `uint8_t` alpha of 128 or more left by 24 overflows a signed `int` in C. The model uses the 32-bit result that compilers produce, written as arithmetic on disjoint bit fields.
- The rest of `message_dialog.c` is out of scope. This covers custom-message setup, rich-text drawing, advisor and help buttons, and the dialog's own tooltip.
- The rest of `epithets.c` is out of scope. This covers background drawing and `button_close`'s window switch, which appears only as the `true` result of `HandleInput`.
- `weather.h` adds nothing the model needs beyond the weather type names.

## Findings

| source | as written | input that shows it | evidently intended | confidence | as-written member | corrected member |
|---|---|---|---|---|---|---|
| src/graphics/weather.c:340-343 | `weather_stop()` clears `active` before the test `data.weather_config.active && active == 0` reads it, so the fade-out flag is never latched | running rain, then `city_weather_update` rolls no weather: the overlay vanishes at once instead of fading | latch the fade-out when active weather is switched off | not executed; high | WeatherController.DeactivateThenUpdateDropsOverlay | WeatherController.IntendedDeactivateThenUpdateFades |
| src/graphics/rain.c:107-114 | `set_rain_intensity` stores the new intensity but keeps the drop block allocated for the old one | one `rain_draw` at 200, then `set_rain_intensity(1000)`, then `rain_draw` writes `drops[200]` and on | release the drops so the next frame allocates the new size | not executed; high | LegacyRain.SetRainIntensityAsWritten | LegacyRain.SetRainIntensity |
| src/window/epithets.c:108-116 | seven god buttons for six gods; `button_god` can select index 6 | a click on the seventh button, then `draw_foreground` reads `epithets_options[18..20]` of an 18-entry array | one button per god | not executed; medium | Epithets.ButtonGodAsWritten | Epithets.ButtonGod |

=== FILE: argb.dfy ===
/**
  ARGB colour packing of `src/graphics/weather.c` (`apply_alpha`): the
  alpha channel lives in the top byte of a 32-bit colour. The masks and the
  shift touch disjoint bits, so `(color & 0x00FFFFFF) | (alpha << 24)` is
  written here as the sum of the low 24 bits and the alpha scaled by 2^24.
*/
module Argb {

  /** Weight of the top byte. */
  const Channel := 0x100_0000

  type Byte = n: int | 0 <= n < 0x100
  type Color = n: int | 0 <= n < 0x1_0000_0000

  /** The alpha channel of an ARGB colour. */
  function AlphaOf(c: Color): Byte {
    c / Channel
  }

  /** The red, green and blue channels of an ARGB colour. */
  function RgbOf(c: Color): int {
    c % Channel
  }

  /** `apply_alpha`: replace the top (alpha) byte of an ARGB colour, keep RGB. */
  function ApplyAlpha(color: Color, alpha: Byte): (r: Color)
    ensures AlphaOf(r) == alpha
    ensures RgbOf(r) == RgbOf(color)
  {
    RgbOf(color) + alpha * Channel
  }

  /** A colour is determined by its alpha and RGB parts. */
  lemma ChannelsDetermineColor(a: Color, b: Color)
    requires AlphaOf(a) == AlphaOf(b) && RgbOf(a) == RgbOf(b)
    ensures a == b
  {
  }

  /** Packing twice keeps only the last alpha. */
  lemma ApplyAlphaOverwrites(color: Color, a: Byte, b: Byte)
    ensures ApplyAlpha(ApplyAlpha(color, a), b) == ApplyAlpha(color, b)
  {
  }

  /** Packing the colour's own alpha gives the colour back. */
  lemma ApplyOwnAlpha(color: Color)
    ensures ApplyAlpha(color, AlphaOf(color)) == color
  {
  }
}

=== FILE: common.dfy ===
/**
  Shared vocabulary for the C sources modelled here: heap blocks that may be
  null, C's truncating conversions, and the bounded stand-in for `sinf`.
*/
module Common {

  /** A C pointer to a heap block: either null or a block holding `items`. */
  datatype Buffer<T> = Null | Allocated(items: seq<T>) {

    /** Number of slots that may be indexed without leaving the block. */
    function Length(): nat {
      if Null? then 0 else |items|
    }
  }

  /** The number of iterations of `for (i = 0; i < n; ++i)`. */
  function Count(n: int): (r: nat)
    ensures r >= n
    ensures r == n || r == 0
  {
    if n < 0 then 0 else n
  }

  /** C's conversion of a floating value to `int`: truncation toward zero. */
  function Trunc(v: real): (r: int)
    ensures v >= 0.0 ==> 0 <= r && r as real <= v < r as real + 1.0
    ensures v < 0.0 ==> r <= 0 && r as real - 1.0 < v <= r as real
  {
    if v >= 0.0 then v.Floor else -((-v).Floor)
  }

  /** C's `/` on `int`, which truncates toward zero (Dafny's `/` is Euclidean). */
  function CDiv(a: int, b: int): (q: int)
    requires b > 0
    ensures a >= 0 ==> 0 <= a - q * b < b
    ensures a < 0 ==> -b < a - q * b <= 0
  {
    if a >= 0 then a / b else -((-a) / b)
  }

  /** `abs` from stdlib.h (no overflow: the arguments here are small). */
  function Abs(n: int): (r: nat)
    ensures r == n || r == -n
  {
    if n < 0 then -n else n
  }

  /**
    The model of `sinf`: nothing is known about it except that every value
    lies in [-1, 1].
  */
  type Wave = f: real -> real | forall a :: -1.0 <= f(a) <= 1.0 witness (a: real) => 0.0
}

=== FILE: epithets.dfy ===
/**
  The epithets window of `src/window/epithets.c`: a row of god buttons
  selects one of six gods, whose three temple texts are read from an
  18-entry table at `selected * 3 + i`, plus the tooltip and focus rules.
*/
module Epithets {
  import opened Wrappers

  datatype God = Ceres | Neptune | Mercury | Mars | Venus | Pantheon

  /** The temple without modules and its two modules. */
  datatype Level = Base | Module1 | Module2

  /** The translation keys the table and the tooltips refer to. */
  datatype Key =
    | Heading(god: God, level: Level)
    | Description(god: God, level: Level)
    | TooltipKey(god: God)

  /** `option_menu_item` with its icon name. */
  datatype Entry = Entry(header: Key, desc: Key, image: string)

  /** Gods in table order. */
  const Gods: seq<God> := [Ceres, Neptune, Mercury, Mars, Venus, Pantheon]
  const Levels: seq<Level> := [Base, Module1, Module2]

  /** Number of god buttons `buttons_gods_size` declares. */
  const ButtonsAsWritten := 7

  /** `epithets_options`. */
  const Table: seq<Entry> := [
    Entry(Heading(Ceres, Base), Description(Ceres, Base), "Ceres M Icon"),
    Entry(Heading(Ceres, Module1), Description(Ceres, Module1), "Ceres M Icon"),
    Entry(Heading(Ceres, Module2), Description(Ceres, Module2), "Ceres M2 Icon"),
    Entry(Heading(Neptune, Base), Description(Neptune, Base), "Nept M2 Icon"),
    Entry(Heading(Neptune, Module1), Description(Neptune, Module1), "Nept M2 Icon"),
    Entry(Heading(Neptune, Module2), Description(Neptune, Module2), "Nept M Icon"),
    Entry(Heading(Mercury, Base), Description(Mercury, Base), "Merc M Icon"),
    Entry(Heading(Mercury, Module1), Description(Mercury, Module1), "Merc M Icon"),
    Entry(Heading(Mercury, Module2), Description(Mercury, Module2), "Merc M2 Icon"),
    Entry(Heading(Mars, Base), Description(Mars, Base), "Mars M2 Icon"),
    Entry(Heading(Mars, Module1), Description(Mars, Module1), "Mars M2 Icon"),
    Entry(Heading(Mars, Module2), Description(Mars, Module2), "Mars M Icon"),
    Entry(Heading(Venus, Base), Description(Venus, Base), "Venus M Icon"),
    Entry(Heading(Venus, Module1), Description(Venus, Module1), "Venus M Icon"),
    Entry(Heading(Venus, Module2), Description(Venus, Module2), "Venus M2 Icon"),
    Entry(Heading(Pantheon, Base), Description(Pantheon, Base), "Panth M Icon"),
    Entry(Heading(Pantheon, Module1), Description(Pantheon, Module1), "Panth M Icon"),
    Entry(Heading(Pantheon, Module2), Description(Pantheon, Module2), "Panth M2 Icon")
  ]

  /** Row `3 * g + l` describes level `l` of god `g`. */
  lemma TableLayout(g: nat, l: nat)
    requires g < |Gods| && l < |Levels|
    ensures 3 * g + l < |Table|
    ensures Table[3 * g + l].header == Heading(Gods[g], Levels[l])
    ensures Table[3 * g + l].desc == Description(Gods[g], Levels[l])
  {
  }

  /**
    `selected_god_id`, `focus_button_id` (god button under the mouse,
    counted from 1) and `focus_image_button_id` (the close button).
  */
  datatype Window = Window(selected: int, focusButton: nat, focusImage: nat)

  /** `init`. */
  function Init(w: Window): (r: Window)
    ensures r.selected == 0
    ensures r == w.(selected := r.selected)
  {
    w.(selected := 0)
  }

  /** `button_god` as written: the index of the clicked button among the seven. */
  function ButtonGodAsWritten(w: Window, button: nat): (r: Window)
    requires button < ButtonsAsWritten
    ensures 0 <= r.selected < ButtonsAsWritten && r.selected == button
    ensures r == w.(selected := button)
  {
    w.(selected := button)
  }

  /** `button_god` with one button per god. */
  function ButtonGod(w: Window, button: nat): (r: Window)
    requires button < |Gods|
    ensures Selected(r) && r.selected == button
    ensures r == w.(selected := button)
  {
    w.(selected := button)
  }

  /** The selection names a god. */
  predicate Selected(w: Window) {
    0 <= w.selected < |Gods|
  }

  /** The three rows `draw_foreground` reads, or the first index outside the table. */
  datatype Shown = Rows(rows: seq<Entry>) | OutOfBounds(index: int)

  /** The table reads of `draw_foreground`'s loop over `i` in 0..2. */
  function DrawForeground(w: Window): (r: Shown)
    ensures r.Rows? <==> Selected(w)
    ensures r.Rows? ==>
      && |r.rows| == 3
      && (forall i :: 0 <= i < 3 ==> r.rows[i].header == Heading(Gods[w.selected], Levels[i]))
      && (forall i :: 0 <= i < 3 ==> r.rows[i].desc == Description(Gods[w.selected], Levels[i]))
    ensures r.OutOfBounds? ==> r.index < 0 || r.index >= |Table|
  {
    var first := w.selected * 3;
    if first < 0 || first + 2 >= |Table| then
      OutOfBounds(if first < 0 then first else |Table|)
    else
      var rows := Table[first..first + 3];
      TableLayout(w.selected, 0);
      TableLayout(w.selected, 1);
      TableLayout(w.selected, 2);
      Rows(rows)
  }

  /** The seventh button selects a god the table does not have: the reads run past its end. */
  lemma SeventhButtonOverruns(w: Window)
    ensures DrawForeground(ButtonGodAsWritten(w, 6)) == OutOfBounds(18)
  {
  }

  /**
    After a series of clicks on the seven buttons the table is read inside
    its bounds exactly when the last click was on one of the six gods; a
    last click on the seventh button reads past the end.
  */
  lemma ClicksStayInTable(w: Window, clicks: seq<nat>)
    requires forall k :: 0 <= k < |clicks| ==> clicks[k] < ButtonsAsWritten
    ensures DrawForeground(Clicks(Init(w), clicks)).Rows? <==> |clicks| == 0 || clicks[|clicks| - 1] < |Gods|
    ensures |clicks| > 0 && clicks[|clicks| - 1] == 6 ==> DrawForeground(Clicks(Init(w), clicks)) == OutOfBounds(18)
  {
  }

  /** A series of clicks on the seven buttons, through `button_god` as written. */
  function Clicks(w: Window, clicks: seq<nat>): (r: Window)
    requires forall k :: 0 <= k < |clicks| ==> clicks[k] < ButtonsAsWritten
    ensures |clicks| > 0 ==> r.selected == clicks[|clicks| - 1]
    ensures |clicks| == 0 ==> r == w
    ensures r == w.(selected := r.selected)
    ensures 0 <= w.selected < ButtonsAsWritten ==> 0 <= r.selected < ButtonsAsWritten
    decreases |clicks|
  {
    if |clicks| == 0 then w else Clicks(ButtonGodAsWritten(w, clicks[0]), clicks[1..])
  }

  datatype TooltipType = NoTooltip | ButtonTooltip

  /** The fields of `tooltip_context` this window writes. */
  datatype Tooltip = Tooltip(kind: TooltipType, textId: int, key: Option<Key>)

  /**
    `get_tooltip`: nothing without focus; the close button shows text 2 and
    god button `k` (1..6) the tooltip of the `k`-th god.
  */
  function GetTooltip(w: Window, c: Tooltip): (r: Tooltip)
    ensures w.focusImage == 0 && w.focusButton == 0 ==> r == c
    ensures (w.focusImage != 0 || w.focusButton != 0) ==> r.kind == ButtonTooltip
    ensures r.textId == (if w.focusImage != 0 then 2 else c.textId)
    ensures 1 <= w.focusButton <= |Gods| ==> r.key == Some(TooltipKey(Gods[w.focusButton - 1]))
    ensures !(1 <= w.focusButton <= |Gods|) ==> r.key == c.key
  {
    if w.focusImage == 0 && w.focusButton == 0 then
      c
    else
      var text := if w.focusImage != 0 then 2 else c.textId;
      var key := if 1 <= w.focusButton <= |Gods| then Some(TooltipKey(Gods[w.focusButton - 1])) else c.key;
      Tooltip(ButtonTooltip, text, key)
  }

  /** Different god buttons never share a tooltip. */
  lemma TooltipsDistinct(w: Window, c: Tooltip, a: nat, b: nat)
    requires 1 <= a <= |Gods| && 1 <= b <= |Gods| && a != b
    ensures GetTooltip(w.(focusButton := a), c).key != GetTooltip(w.(focusButton := b), c).key
  {
  }

  /** The tooltip of the hovered god button names the god a click on it selects. */
  lemma TooltipMatchesSelection(w: Window, c: Tooltip, button: nat)
    requires button < |Gods|
    ensures GetTooltip(w.(focusButton := button + 1), c).key
         == Some(TooltipKey(Gods[ButtonGod(w, button).selected]))
  {
  }

  /** What the mouse handlers report for one frame. */
  datatype Mouse = Mouse(imageFocus: nat, buttonFocus: nat, godClick: Option<nat>, closeClick: bool, back: bool)

  /**
    `handle_input`: both handlers run; focus on the close button clears the
    god-button focus, a click on a god selects it, and the window goes back
    to the advisors on the close button or on an unhandled Back request.
  */
  function HandleInput(w: Window, m: Mouse): (r: (Window, bool))
    requires m.godClick.Some? ==> m.godClick.value < ButtonsAsWritten
    ensures r.0.focusImage == m.imageFocus
    ensures r.0.focusButton == (if m.imageFocus != 0 then 0 else m.buttonFocus)
    ensures r.0.focusImage != 0 ==> r.0.focusButton == 0
    ensures r.0.selected == (if m.godClick.Some? then m.godClick.value else w.selected)
    ensures r.1 <==> m.closeClick || (m.godClick.None? && m.back)
    ensures 0 <= w.selected < ButtonsAsWritten ==> 0 <= r.0.selected < ButtonsAsWritten
    ensures Selected(w) && (m.godClick.Some? ==> m.godClick.value < |Gods|) ==> Selected(r.0)
  {
    var clicked := if m.godClick.Some? then ButtonGodAsWritten(w, m.godClick.value) else w;
    var handled := m.closeClick || m.godClick.Some?;
    var focused := clicked.(focusImage := m.imageFocus,
                            focusButton := if m.imageFocus != 0 then 0 else m.buttonFocus);
    (focused, m.closeClick || (!handled && m.back))
  }

  /** While the close button has focus the tooltip is the close button's, with no god key added. */
  lemma CloseFocusHidesGodTooltip(w: Window, m: Mouse, c: Tooltip)
    requires m.godClick.Some? ==> m.godClick.value < ButtonsAsWritten
    requires m.imageFocus != 0
    ensures GetTooltip(HandleInput(w, m).0, c) == Tooltip(ButtonTooltip, 2, c.key)
  {
  }
}

=== FILE: lightning.dfy ===
/**
  The lightning timer/cooldown machine shared by `src/graphics/weather.c` and
  `src/graphics/rain.c`. A flash starts only when the cooldown has run out and
  a 1-in-500 roll succeeds; it then lasts 5..9 frames and blocks the next
  flash for 300..699 frames. The white full-screen fill is reported as
  `flashed`; the thunder cue of weather.c as `thunder`.
*/
module Lightning {

  /** `lightning_timer` (frames of flash left) and `lightning_cooldown`. */
  datatype Flash = Flash(timer: int, cooldown: int)

  /** The raw non-negative random values one frame may consume, in call order. */
  datatype Draws = Draws(roll: nat, duration: nat, gap: nat)

  /** One frame of the machine: the new state and whether the flash was drawn. */
  datatype Tick = Tick(flash: Flash, flashed: bool)

  /** One frame of weather.c's `update_lightning`: the tick plus the thunder cue. */
  datatype Storm = Storm(tick: Tick, thunder: bool)

  const Odds := 500
  const MinDuration := 5
  const DurationSpread := 5
  const MinGap := 300
  const GapSpread := 400
  /** `update_lightning` plays thunder when the decremented timer reads this. */
  const ThunderMark := 5

  const Idle := Flash(0, 0)

  /** The machine's reachable states: no flash in progress outlives its cooldown. */
  predicate Valid(s: Flash) {
    && 0 <= s.timer <= MinDuration + DurationSpread - 1
    && 0 <= s.cooldown
    && (s.timer > 0 ==> s.cooldown >= s.timer)
  }

  /** A new flash starts this frame. */
  predicate Triggers(s: Flash, d: Draws) {
    s.cooldown <= 0 && d.roll % Odds == 0
  }

  /** The timer after the trigger/cooldown step and before the flash decrement. */
  function Armed(s: Flash, d: Draws): (r: Flash)
    ensures Triggers(s, d) ==> MinDuration <= r.timer < MinDuration + DurationSpread
    ensures Triggers(s, d) ==> MinGap <= r.cooldown < MinGap + GapSpread
    ensures !Triggers(s, d) ==> r.timer == s.timer
    ensures !Triggers(s, d) && s.cooldown > 0 ==> r.cooldown == s.cooldown - 1
    ensures !Triggers(s, d) && s.cooldown <= 0 ==> r.cooldown == s.cooldown
  {
    if Triggers(s, d) then
      Flash(MinDuration + d.duration % DurationSpread, MinGap + d.gap % GapSpread)
    else if s.cooldown > 0 then
      s.(cooldown := s.cooldown - 1)
    else
      s
  }

  /**
    The trigger/cooldown step followed by the flash step: while the timer is
    positive the flash is drawn and the timer counts down by one.
  */
  function Advance(s: Flash, d: Draws): (r: Tick)
    ensures r.flashed <==> Armed(s, d).timer > 0
    ensures r.flash.cooldown == Armed(s, d).cooldown
    ensures r.flashed ==> r.flash.timer == Armed(s, d).timer - 1
    ensures !r.flashed ==> r.flash.timer == Armed(s, d).timer
    ensures s.timer >= 0 && s.cooldown >= 0 ==> r.flash.timer >= 0 && r.flash.cooldown >= 0
    ensures Valid(s) ==> Valid(r.flash)
  {
    var a := Armed(s, d);
    if a.timer > 0 then Tick(a.(timer := a.timer - 1), true) else Tick(a, false)
  }

  /** weather.c's `update_lightning`: thunder when the timer reads 5 after the frame. */
  function StormFrame(s: Flash, d: Draws): (r: Storm)
    ensures r.tick == Advance(s, d)
    ensures r.thunder <==> Armed(s, d).timer == ThunderMark + 1
  {
    var t := Advance(s, d);
    Storm(t, t.flash.timer == ThunderMark)
  }

  /** `frames` consecutive calls of `update_lightning`: final state and thunder cues played. */
  function Run(s: Flash, frames: seq<Draws>): (r: (Flash, nat))
    decreases |frames|
  {
    if |frames| == 0 then (s, 0)
    else
      var st := StormFrame(s, frames[0]);
      var rest := Run(st.tick.flash, frames[1..]);
      (rest.0, rest.1 + (if st.thunder then 1 else 0))
  }

  /** While a flash is in progress no new one can start. */
  lemma NoTriggerDuringFlash(s: Flash, d: Draws)
    requires Valid(s) && s.timer > 0
    ensures !Triggers(s, d)
    ensures Advance(s, d).flash == Flash(s.timer - 1, s.cooldown - 1)
  {
  }

  /**
    A flash in progress runs out after exactly `timer` frames, whatever is
    drawn, and plays thunder once if it still had 6 or more frames, never
    otherwise.
  */
  lemma {:induction false} FlashRunsOut(s: Flash, frames: seq<Draws>)
    requires Valid(s) && s.timer > 0
    requires |frames| == s.timer
    ensures Run(s, frames).0 == Flash(0, s.cooldown - s.timer)
    ensures Run(s, frames).1 == (if s.timer >= ThunderMark + 1 then 1 else 0)
    decreases |frames|
  {
    NoTriggerDuringFlash(s, frames[0]);
    var next := Advance(s, frames[0]).flash;
    if next.timer > 0 {
      FlashRunsOut(next, frames[1..]);
    }
  }

  /**
    A flash started from rest lasts 5..9 frames and is followed by thunder
    exactly once when it lasts 6 or more frames; a 5-frame flash is silent.
  */
  lemma {:induction false} ThunderOnlyForLongFlashes(d: Draws, rest: seq<Draws>)
    requires d.roll % Odds == 0
    requires |rest| == MinDuration + d.duration % DurationSpread - 1
    ensures Run(Idle, [d] + rest).0.timer == 0
    ensures Run(Idle, [d] + rest).0.cooldown >= MinGap - (MinDuration + DurationSpread - 2)
    ensures Run(Idle, [d] + rest).1 == (if d.duration % DurationSpread >= 1 then 1 else 0)
  {
    var frames := [d] + rest;
    assert frames[0] == d && frames[1..] == rest;
    var first := Advance(Idle, d).flash;
    assert first.timer == MinDuration + d.duration % DurationSpread - 1 > 0;
    FlashRunsOut(first, rest);
  }
}

=== FILE: message_dialog.dfy ===
/**
  The non-drawing logic of `src/window/message_dialog.c`: the bounded
  back-history of followed links, the popup protection timer, the
  go-to-problem guard, the music volume chosen next to speech, and the
  classifiers that decide which buttons a message offers. Clocks, sound
  and video devices and the rich-text engine are parameters.
*/
module MessageDialog {
  import opened Common
  import opened Wrappers

  /** `MAX_HISTORY`: slots in the history array. */
  const MaxHistory := 200
  /** `POPUP_PROTECTION_MILIS`. */
  const PopupProtection := 400
  /** Tiles of the 162 x 162 city map; valid grid offsets lie strictly between 0 and this. */
  const GridSize := 26244
  /** The unducked background-music volume. */
  const FullVolume := 100

  /** One history slot: the text shown and its scroll position. */
  datatype Entry = Entry(textId: int, scroll: int)

  /** `player_message`. */
  datatype PlayerMessage = PlayerMessage(year: int, month: int, param1: int, param2: int, advisor: int, usePopup: int)

  /**
    The dialog's `data` as far as it is modelled; `scroll` is the rich-text
    scroll position that `rich_text_reset` sets.
  */
  datatype Dialog = Dialog(
    history: seq<Entry>,
    numHistory: int,
    textId: int,
    scroll: int,
    custom: bool,
    showVideo: bool,
    displayed: int,
    message: PlayerMessage)

  /** The history array has its 200 slots and the count indexes inside it. */
  predicate Valid(d: Dialog) {
    |d.history| == MaxHistory && 0 <= d.numHistory < MaxHistory
  }

  /** The pages Back can still return to, oldest first. */
  function Trail(d: Dialog): seq<Entry>
    requires Valid(d)
  {
    d.history[..d.numHistory]
  }

  /**
    `init`: every history slot zeroed, the count reset, the text shown from
    the top. A video is shown only for popups whose video actually starts.
  */
  function Init(d: Dialog, textId: int, custom: bool, hasVideo: bool, videoStarts: bool): (r: Dialog)
    ensures Valid(r)
    ensures r.numHistory == 0 && Trail(r) == []
    ensures forall i :: 0 <= i < |r.history| ==> r.history[i] == Entry(0, 0)
    ensures r.textId == textId && r.scroll == 0 && r.custom == custom
    ensures r.showVideo <==> d.message.usePopup == 1 && hasVideo && videoStarts
    ensures r.message == d.message && r.displayed == d.displayed
  {
    var show := if d.message.usePopup != 1 then false else hasVideo && videoStarts;
    d.(history := seq(MaxHistory, _ => Entry(0, 0)), numHistory := 0, textId := textId,
       scroll := 0, custom := custom, showVideo := show)
  }

  /**
    A click on a link to `link` in `handle_input_normal`: remember the page
    while fewer than 199 entries are stored, then show the target from the
    top. A negative link means no link was hit and nothing happens.
  */
  function ClickLink(d: Dialog, link: int): (r: (Dialog, bool))
    requires Valid(d)
    ensures Valid(r.0)
    ensures r.1 <==> link >= 0
    ensures link < 0 ==> r.0 == d
    ensures link >= 0 ==> r.0.textId == link && r.0.scroll == 0
    ensures link >= 0 && d.numHistory < MaxHistory - 1 ==>
      r.0.numHistory == d.numHistory + 1 && Trail(r.0) == Trail(d) + [Entry(d.textId, d.scroll)]
    ensures link >= 0 && d.numHistory == MaxHistory - 1 ==> r.0.history == d.history && r.0.numHistory == d.numHistory
    ensures r.0.custom == d.custom && r.0.showVideo == d.showVideo && r.0.message == d.message
    ensures r.0.displayed == d.displayed
    ensures r.0 == d.(history := r.0.history, numHistory := r.0.numHistory, textId := r.0.textId, scroll := r.0.scroll)
  {
    if link < 0 then
      (d, false)
    else
      var pushed :=
        if d.numHistory < MaxHistory - 1 then
          d.(history := d.history[d.numHistory := Entry(d.textId, d.scroll)], numHistory := d.numHistory + 1)
        else d;
      (pushed.(textId := link, scroll := 0), true)
  }

  /** `button_back`: return to the most recent remembered page, if any. */
  function Back(d: Dialog): (r: Dialog)
    requires Valid(d)
    ensures Valid(r)
    ensures d.numHistory == 0 ==> r == d
    ensures d.numHistory > 0 ==>
      r.numHistory == d.numHistory - 1 && Trail(d) == Trail(r) + [Entry(r.textId, r.scroll)]
    ensures r.history == d.history
    ensures r.custom == d.custom && r.showVideo == d.showVideo && r.message == d.message
    ensures r.displayed == d.displayed
    ensures r == d.(numHistory := r.numHistory, textId := r.textId, scroll := r.scroll)
  {
    if d.numHistory > 0 then
      var top := d.history[d.numHistory - 1];
      assert d.history[..d.numHistory] == d.history[..d.numHistory - 1] + [top];
      d.(numHistory := d.numHistory - 1, textId := top.textId, scroll := top.scroll)
    else
      d
  }

  /** What the reader sees and can go back to. */
  predicate SameView(a: Dialog, b: Dialog)
    requires Valid(a) && Valid(b)
  {
    a.textId == b.textId && a.scroll == b.scroll && Trail(a) == Trail(b)
  }

  /** Following a link and pressing Back restores page, scroll position and trail. */
  lemma LinkThenBack(d: Dialog, link: int)
    requires Valid(d) && link >= 0 && d.numHistory < MaxHistory - 1
    ensures SameView(Back(ClickLink(d, link).0), d)
  {
  }

  /**
    With 199 entries stored a followed link is not remembered: Back then
    skips the page the link was followed from.
  */
  lemma FullHistoryForgets(d: Dialog, link: int)
    requires Valid(d) && link >= 0 && d.numHistory == MaxHistory - 1
    ensures Back(ClickLink(d, link).0).textId == d.history[MaxHistory - 2].textId
    ensures Back(ClickLink(d, link).0).numHistory == MaxHistory - 2
  {
  }

  /** `set_city_message`: store the message; a popup restarts the protection timer. */
  function SetCityMessage(d: Dialog, year: int, month: int, param1: int, param2: int, advisor: int, usePopup: int, now: int): (r: Dialog)
    ensures r.message == PlayerMessage(year, month, param1, param2, advisor, usePopup)
    ensures usePopup != 0 ==> r.displayed == now
    ensures usePopup == 0 ==> r.displayed == d.displayed
    ensures r == d.(message := r.message, displayed := r.displayed)
  {
    var stored := d.(message := PlayerMessage(year, month, param1, param2, advisor, usePopup));
    if usePopup != 0 then stored.(displayed := now) else stored
  }

  /** `can_skip_popup`. */
  function CanSkipPopup(d: Dialog, now: int): (r: bool)
    ensures r <==> now - d.displayed >= PopupProtection + 1
  {
    now > d.displayed + PopupProtection
  }

  /** Once a popup may be skipped it stays skippable as time goes on. */
  lemma SkippableStaysSkippable(d: Dialog, now: int, later: int)
    requires now <= later && CanSkipPopup(d, now)
    ensures CanSkipPopup(d, later)
  {
  }

  /**
    A popup cannot be dismissed with Back until more than 400 ms after it
    was set; a message without popup leaves the timer as it was.
  */
  lemma PopupProtected(d: Dialog, year: int, month: int, param1: int, param2: int, advisor: int, usePopup: int, now: int, later: int)
    ensures var r := SetCityMessage(d, year, month, param1, param2, advisor, usePopup, now);
      && (usePopup != 0 ==> (CanSkipPopup(r, later) <==> later - now > PopupProtection))
      && (usePopup == 0 ==> (CanSkipPopup(r, later) <==> CanSkipPopup(d, later)))
  {
  }

  /** `cleanup`: the video stops and the advisor of the message is forgotten. */
  function Cleanup(d: Dialog): (r: Dialog)
    ensures !r.showVideo && r.message.advisor == 0
    ensures r == d.(showVideo := false, message := d.message.(advisor := 0))
  {
    d.(showVideo := false, message := d.message.(advisor := 0))
  }

  /**
    `button_close`: a custom message still showing its video switches to its
    text; anything else is cleaned up and the dialog closes (`true`).
  */
  function ButtonClose(d: Dialog): (r: (Dialog, bool))
    ensures r.1 <==> !(d.custom && d.showVideo)
    ensures !r.0.showVideo
    ensures !r.1 ==> r.0 == d.(showVideo := false)
    ensures r.1 ==> r.0 == Cleanup(d)
  {
    if d.custom && d.showVideo then (d.(showVideo := false), false) else (Cleanup(d), true)
  }

  /**
    The end of `handle_input`: an unhandled Back request closes the dialog,
    but only once the popup protection has run out.
  */
  function BackRequested(d: Dialog, handled: bool, back: bool, now: int): (r: (Dialog, bool))
    ensures r.1 ==> !handled && back && now - d.displayed > PopupProtection
    ensures !(!handled && back && CanSkipPopup(d, now)) ==> r == (d, false)
    ensures !handled && back && CanSkipPopup(d, now) ==> r == ButtonClose(d)
  {
    if !handled && back && CanSkipPopup(d, now) then ButtonClose(d) else (d, false)
  }

  /** `lang_message.type`, as far as this file distinguishes it. */
  datatype TextKind = Manual | Message | OtherKind

  /** `lang_message.message_type`, the values this file branches on and the rest. */
  datatype MessageType =
    | Disaster | Invasion | Emigration | Tutorial | TradeChange | PriceChange
    | RoutePriceChange | Imperial | BuildingCompletion | CustomType | General

  /** The fields of a `lang_message` the logic reads. */
  datatype Text = Text(kind: TextKind, messageType: MessageType, imageId: int)

  /** The message types that concern a place on the map. */
  const EventTypes: set<MessageType> := {Disaster, Invasion, BuildingCompletion}

  /** `is_event_message`. */
  function IsEventMessage(t: Text): (r: bool)
    ensures r <==> t.kind == Message && t.messageType in EventTypes
  {
    t.kind == Message
      && (t.messageType == Disaster || t.messageType == Invasion || t.messageType == BuildingCompletion)
  }

  /** The image buttons a dialog offers. */
  datatype Button = BackButton | AdvisorButton | ProblemButton | CloseButton

  /**
    The buttons `draw_foreground_normal` and `draw_foreground_video` show;
    `handle_input_normal` and `handle_input_video` answer to the same ones,
    except that the Back button of a manual page reacts even when hidden.
  */
  function Buttons(d: Dialog, t: Text): (r: set<Button>)
    ensures CloseButton in r
    ensures AdvisorButton in r <==> t.kind == Message || d.showVideo
    ensures ProblemButton in r <==> t.kind == Message && t.messageType in EventTypes
    ensures BackButton in r <==> !d.showVideo && t.kind == Manual && d.numHistory > 0
  {
    if d.showVideo then
      {AdvisorButton, CloseButton} + (if IsEventMessage(t) then {ProblemButton} else {})
    else
      (if t.kind == Manual && d.numHistory > 0 then {BackButton} else {})
      + (if t.kind == Message then {AdvisorButton} else {})
      + (if t.kind == Message && IsEventMessage(t) then {ProblemButton} else {})
      + {CloseButton}
  }

  /** The hidden Back button of a manual page without history does nothing. */
  lemma HiddenBackIsHarmless(d: Dialog, t: Text)
    requires Valid(d) && t.kind == Manual && !d.showVideo
    ensures BackButton !in Buttons(d, t) ==> Back(d) == d
  {
  }

  /**
    `button_go_to_problem`: clean up, then centre the city view on the
    problem's tile. An invasion uses the invading army's tile when it has
    one; a tile is used only when it lies on the map.
  */
  function GoToProblem(d: Dialog, t: Text, invasionOffset: int): (r: (Dialog, Option<int>))
    ensures r.0 == Cleanup(d)
    ensures r.1.Some? ==> 0 < r.1.value < GridSize
    ensures r.1.Some? ==> r.1.value == d.message.param2 || (t.messageType == Invasion && r.1.value == invasionOffset)
    ensures t.messageType == Invasion && 0 < invasionOffset < GridSize ==> r.1 == Some(invasionOffset)
    ensures (t.messageType != Invasion || invasionOffset <= 0) ==>
      (r.1.Some? <==> 0 < d.message.param2 < GridSize)
    ensures t.messageType == Invasion && invasionOffset >= GridSize ==> r.1 == None
  {
    var offset := if t.messageType == Invasion && invasionOffset > 0 then invasionOffset else d.message.param2;
    (Cleanup(d), if 0 < offset < GridSize then Some(offset) else None)
  }

  /** The two volume settings `init_speech` reads. */
  datatype Volumes = Volumes(speech: int, music: int)

  /**
    What `init_speech` starts: whether it tried the speech file, the volume
    the background music was started at, and whether the music fades out
    when the speech ends.
  */
  datatype SpeechPlan = Ignored | Plan(speech: bool, music: Option<int>, fadeout: bool)

  /**
    `init_speech`. `speechStarts` and `musicStarts` are what the sound device
    reports when asked to play.
  */
  function InitSpeech(isSpeech: bool, playSpeech: bool, playMusic: bool, v: Volumes, speechStarts: bool, musicStarts: bool): (r: SpeechPlan)
    ensures !isSpeech <==> r == Ignored
    ensures r.Plan? ==> r.speech == playSpeech
    ensures r.Plan? ==> (r.music.Some? <==> playMusic)
    ensures r.Plan? && r.music.Some? ==> r.music.value <= v.music
    ensures r.Plan? && r.music.Some? && playSpeech && speechStarts ==>
      r.music.value <= CDiv(v.speech, 3) && (r.music.value == CDiv(v.speech, 3) || r.music.value == v.music)
    ensures r.Plan? && r.music.Some? && !(playSpeech && speechStarts) ==>
      r.music.value <= FullVolume && (r.music.value == FullVolume || r.music.value == v.music)
    ensures r.Plan? ==> (r.fadeout <==> playSpeech && playMusic && speechStarts && musicStarts)
  {
    if !isSpeech then
      Ignored
    else
      var both := playSpeech && playMusic;
      var hasSpeech := if playSpeech then both && speechStarts else both;
      if playMusic then
        var wanted := if hasSpeech then CDiv(v.speech, 3) else FullVolume;
        var volume := if wanted > v.music then v.music else wanted;
        Plan(playSpeech, Some(volume), hasSpeech && musicStarts)
      else
        Plan(playSpeech, None, hasSpeech)
  }

  /**
    Speech ducks the music: with speech playing the music is at most a third
    of the speech volume, and (for volume settings within 0..100) never louder
    than the same message would play it without speech.
  */
  lemma MusicDuckedUnderSpeech(v: Volumes, musicStarts: bool)
    requires v.speech >= 0
    ensures var ducked := InitSpeech(true, true, true, v, true, musicStarts);
      ducked.music.Some? && 3 * ducked.music.value <= v.speech
    ensures v.speech <= FullVolume ==>
      InitSpeech(true, true, true, v, true, musicStarts).music.value
        <= InitSpeech(true, false, true, v, false, musicStarts).music.value
  {
  }

  /**
    `get_message_image_id`: no image, the fixed portrait of the "about"
    page (text 0), or the message's own image counted from 1.
  */
  function MessageImage(t: Text, textId: int, bigPeople: int, messageImages: int): (r: int)
    ensures t.imageId == 0 ==> r == 0
    ensures t.imageId != 0 && textId == 0 ==> r == bigPeople
    ensures t.imageId != 0 && textId != 0 ==> r - messageImages == t.imageId - 1
  {
    if t.imageId == 0 then 0
    else if textId == 0 then bigPeople
    else messageImages + t.imageId - 1
  }

  /** Different message images never share a picture. */
  lemma MessageImagesDistinct(a: Text, b: Text, textId: int, bigPeople: int, messageImages: int)
    requires textId != 0 && a.imageId > 0 && b.imageId > 0
    ensures MessageImage(a, textId, bigPeople, messageImages) == MessageImage(b, textId, bigPeople, messageImages)
      <==> a.imageId == b.imageId
  {
  }
}

=== FILE: rain.dfy ===
/**
  The older rain-only engine of `src/graphics/rain.c`: integer drops,
  `rain_stop`, the lazily allocating `rain_draw`, the gated lightning and the
  clamping `set_rain_intensity`. The drop block records its own length, so
  an index past the allocation shows up as an `OutOfBounds` outcome.
*/
module LegacyRain {
  import opened Common
  import opened Wind
  import Lightning

  /** `Drop`. */
  datatype Drop = Drop(x: int, y: int, length: int, speed: int)

  /** `RainConfig`; `dy` is 5 and nothing in rain.c changes it. */
  datatype RainConfig = RainConfig(active: bool, intensity: int, dx: int, dy: int)

  /** The file-scope state of rain.c. */
  datatype Storm = Storm(
    config: RainConfig,
    drops: Buffer<Drop>,
    initialized: bool,
    lightning: Lightning.Flash,
    windAngle: real)

  /** The static initialisers: rain enabled at intensity 200, nothing allocated. */
  const Start := Storm(RainConfig(true, 200, 1, 5), Null, false, Lightning.Idle, 0.0)

  const MaxIntensity := 1000
  /** Lightning runs only above this intensity. */
  const StormLimit := 800

  /** The `rand()` values `init_drop` consumes. */
  datatype DropDraws = DropDraws(x: nat, length: nat, speed: nat)

  /** What one call of `rain_draw` is given. */
  datatype Inputs = Inputs(
    width: int,
    height: int,
    sin: Wave,
    seed: nat -> DropDraws,
    reseed: nat -> DropDraws,
    bolt: Lightning.Draws)

  /** The result of `rain_draw`: a drawn frame, or the first index past the drop block. */
  datatype Outcome = Drawn(storm: Storm, flashed: bool, segments: nat) | OutOfBounds(index: nat)

  predicate Seeded(d: Drop) {
    10 <= d.length <= 19 && 4 <= d.speed <= 8
  }

  /**
    States whose drop block matches the intensity: while initialised the block
    holds exactly `intensity` seeded drops. `SetRainIntensity` keeps this;
    `SetRainIntensityAsWritten` does not (see `RaisedIntensityOverruns`).
  */
  predicate Valid(s: Storm) {
    && (s.initialized <==> s.drops.Allocated?)
    && (s.initialized ==>
          && |s.drops.items| == Count(s.config.intensity)
          && AllSeeded(s.drops.items))
    && Lightning.Valid(s.lightning)
  }

  lemma StartIsValid()
    ensures Valid(Start)
  {
  }

  /** `init_drop`: a fresh drop at the top edge. */
  function InitDrop(d: DropDraws, width: int): (r: Drop)
    requires width > 0
    ensures 0 <= r.x < width && r.y == 0
    ensures Seeded(r)
  {
    Drop(d.x % width, 0, 10 + d.length % 10, 4 + d.speed % 5)
  }

  /** `rain_stop`: disable rain and free the drops (`free(NULL)` is harmless). */
  function RainStop(s: Storm): (r: Storm)
    ensures !r.config.active && r.drops == Null && !r.initialized
    ensures r.config.intensity == s.config.intensity && r.lightning == s.lightning
    ensures r.windAngle == s.windAngle
    ensures Valid(s) ==> Valid(r)
  {
    s.(config := s.config.(active := false), drops := Null, initialized := false)
  }

  lemma RainStopIdempotent(s: Storm)
    ensures RainStop(RainStop(s)) == RainStop(s)
  {
  }

  /** rain.c's `update_lightning`: the shared machine, run only for active heavy rain. */
  function UpdateLightning(c: RainConfig, s: Lightning.Flash, d: Lightning.Draws): (r: Lightning.Tick)
    ensures !(c.active && c.intensity > StormLimit) ==> r.flash == s && !r.flashed
    ensures c.active && c.intensity > StormLimit ==> r == Lightning.Advance(s, d)
    ensures Lightning.Valid(s) ==> Lightning.Valid(r.flash)
    ensures r.flashed ==> r.flash.timer == s.timer - 1 || Lightning.Triggers(s, d)
  {
    if c.active && c.intensity > StormLimit then
      Lightning.Advance(s, d)
    else
      Lightning.Tick(s, false)
  }

  /** A drop leaves through the bottom or the right edge (the left edge is not tested). */
  predicate DropLeaves(d: Drop, dx: int, dy: int, height: int, width: int) {
    d.y + d.speed + dy > height || d.x + dx > width
  }

  /** One drop of `rain_draw`: move by the wind and fall, reseed when it left. */
  function StepDrop(d: Drop, dx: int, dy: int, width: int, height: int, reseed: DropDraws): (r: Drop)
    requires width > 0
    requires Seeded(d)
    ensures Seeded(r)
    ensures DropLeaves(d, dx, dy, height, width) ==> r.y == 0 && 0 <= r.x < width
    ensures !DropLeaves(d, dx, dy, height, width) ==>
      r.y == d.y + d.speed + dy && r.x == d.x + dx && r.y <= height
  {
    var moved := d.(x := d.x + dx, y := d.y + d.speed + dy);
    if moved.y > height || moved.x > width then InitDrop(reseed, width) else moved
  }

  predicate AllSeeded(ds: seq<Drop>) {
    forall i :: 0 <= i < |ds| ==> Seeded(ds[i])
  }

  /** The allocation loop of `rain_draw`: `n` fresh drops. */
  function AllocateDrops(n: nat, width: int, seed: nat -> DropDraws): (r: seq<Drop>)
    requires width > 0
    ensures |r| == n && AllSeeded(r)
    ensures forall i :: 0 <= i < n ==> r[i] == InitDrop(seed(i), width)
  {
    var block := seq(n, i requires 0 <= i < n => InitDrop(seed(i), width));
    assert forall i :: 0 <= i < n ==> block[i] == InitDrop(seed(i), width);
    block
  }

  /** The drawing loop of `rain_draw` over drops `0 .. n-1`; the rest of the block is untouched. */
  function MoveDrops(block: seq<Drop>, n: nat, dx: int, dy: int, width: int, height: int, reseed: nat -> DropDraws): (r: seq<Drop>)
    requires width > 0 && n <= |block| && AllSeeded(block)
    ensures |r| == |block| && AllSeeded(r)
    ensures forall i :: 0 <= i < n ==> r[i] == StepDrop(block[i], dx, dy, width, height, reseed(i))
    ensures r[n..] == block[n..]
  {
    var moved := seq(n, i requires 0 <= i < n => StepDrop(block[i], dx, dy, width, height, reseed(i)));
    assert forall i :: 0 <= i < n ==> moved[i] == StepDrop(block[i], dx, dy, width, height, reseed(i));
    moved + block[n..]
  }

  /**
    `rain_draw`: stop when disabled; allocate `intensity` drops on first use;
    steer the wind, run lightning, then move drops `0 .. intensity-1`, which
    must all lie inside the block allocated earlier.
  */
  function RainDraw(s: Storm, io: Inputs): (r: Outcome)
    requires io.width > 0
    requires s.initialized <==> s.drops.Allocated?
    requires s.initialized ==> AllSeeded(s.drops.items)
    ensures !s.config.active ==> r == Drawn(RainStop(s), false, 0)
    ensures r.OutOfBounds? <==> s.config.active && s.initialized && Count(s.config.intensity) > |s.drops.items|
    ensures r.OutOfBounds? ==> r.index == |s.drops.items|
    ensures r.Drawn? && s.config.active ==>
      && r.storm.initialized
      && r.storm.drops.Allocated?
      && AllSeeded(r.storm.drops.items)
      && (s.initialized ==> |r.storm.drops.items| == |s.drops.items|)
      && (!s.initialized ==> |r.storm.drops.items| == Count(s.config.intensity))
      && r.segments == Count(s.config.intensity)
      && r.storm.config == s.config.(dx := r.storm.config.dx)
      && -2 <= r.storm.config.dx <= 2
    ensures r.Drawn? && s.config.active ==>
      var block := if s.initialized then s.drops.items else AllocateDrops(Count(s.config.intensity), io.width, io.seed);
      && r.storm.drops.items == MoveDrops(block, Count(s.config.intensity), r.storm.config.dx, s.config.dy, io.width, io.height, io.reseed)
      && (r.storm.windAngle, r.storm.config.dx) == UpdateWind(s.windAngle, io.sin)
      && Lightning.Tick(r.storm.lightning, r.flashed) == UpdateLightning(r.storm.config, s.lightning, io.bolt)
    ensures r.Drawn? && r.flashed ==> s.config.intensity > StormLimit
    ensures Valid(s) && r.Drawn? ==> Valid(r.storm)
  {
    if !s.config.active then
      Drawn(RainStop(s), false, 0)
    else
      var n := Count(s.config.intensity);
      var block := if s.initialized then s.drops.items else AllocateDrops(n, io.width, io.seed);
      var wind := UpdateWind(s.windAngle, io.sin);
      var cfg := s.config.(dx := wind.1);
      var tick := UpdateLightning(cfg, s.lightning, io.bolt);
      if n > |block| then
        OutOfBounds(|block|)
      else
        var moved := MoveDrops(block, n, cfg.dx, cfg.dy, io.width, io.height, io.reseed);
        Drawn(Storm(cfg, Allocated(moved), true, tick.flash, wind.0), tick.flashed, n)
  }

  /** `set_rain_intensity` as written: clamp to [0, 1000] and store; the drops are left alone. */
  function SetRainIntensityAsWritten(s: Storm, intensity: int): (r: Storm)
    ensures 0 <= r.config.intensity <= MaxIntensity
    ensures 0 <= intensity <= MaxIntensity ==> r.config.intensity == intensity
    ensures intensity < 0 ==> r.config.intensity == 0
    ensures intensity > MaxIntensity ==> r.config.intensity == MaxIntensity
    ensures r == s.(config := s.config.(intensity := r.config.intensity))
  {
    var clamped := if intensity < 0 then 0 else if intensity > MaxIntensity then MaxIntensity else intensity;
    s.(config := s.config.(intensity := clamped))
  }

  /**
    Raising the intensity after the first frame makes the next `rain_draw`
    index past the 200-drop block allocated on that first frame.
  */
  lemma RaisedIntensityOverruns(io: Inputs)
    requires io.width > 0
    ensures RainDraw(Start, io).Drawn?
    ensures var after := SetRainIntensityAsWritten(RainDraw(Start, io).storm, 1000);
      RainDraw(after, io) == OutOfBounds(200)
  {
  }

  /**
    `set_rain_intensity` as intended: clamp to [0, 1000], store, and release
    the drops so the next `rain_draw` allocates a block of the new size.
  */
  function SetRainIntensity(s: Storm, intensity: int): (r: Storm)
    ensures 0 <= r.config.intensity <= MaxIntensity
    ensures 0 <= intensity <= MaxIntensity ==> r.config.intensity == intensity
    ensures intensity < 0 ==> r.config.intensity == 0
    ensures intensity > MaxIntensity ==> r.config.intensity == MaxIntensity
    ensures !r.initialized && r.drops == Null
    ensures r.config.active == s.config.active && r.lightning == s.lightning
    ensures Valid(s) ==> Valid(r)
  {
    var clamped := if intensity < 0 then 0 else if intensity > MaxIntensity then MaxIntensity else intensity;
    s.(config := s.config.(intensity := clamped), drops := Null, initialized := false)
  }

  /** Clamping twice is clamping once. */
  lemma SetRainIntensityIdempotent(s: Storm, intensity: int)
    ensures SetRainIntensity(SetRainIntensity(s, intensity), SetRainIntensity(s, intensity).config.intensity)
         == SetRainIntensity(s, intensity)
  {
  }

  /**
    From every state whose drop block matches the intensity (all of them when
    only the corrected `SetRainIntensity` changes it), `rain_draw` indexes only
    inside the drop block.
  */
  lemma ValidDrawStaysInBounds(s: Storm, io: Inputs)
    requires Valid(s) && io.width > 0
    ensures RainDraw(s, io).Drawn?
  {
  }

  /** The drop is reseeded within the given frames of (dx, width, height, draws). */
  predicate DropRecycledWithin(d: Drop, frames: seq<(int, int, int, DropDraws)>)
    requires Seeded(d)
    requires forall k :: 0 <= k < |frames| ==> frames[k].1 > 0
    decreases |frames|
  {
    var f := if |frames| > 0 then frames[0] else (0, 1, 0, DropDraws(0, 0, 0));
    && |frames| > 0
    && (|| DropLeaves(d, f.0, Start.config.dy, f.2, f.1)
        || DropRecycledWithin(StepDrop(d, f.0, Start.config.dy, f.1, f.2, f.3), frames[1..]))
  }

  /**
    Every drop falls at least 9 pixels a frame (speed 4 plus `dy` 5), so on
    screens at most `bound` high it is reseeded within `bound / 9 + 1`
    frames, even while the wind pushes it off the left edge, which is never
    tested.
  */
  lemma {:induction false} DropRecycles(d: Drop, frames: seq<(int, int, int, DropDraws)>, bound: int)
    requires Seeded(d)
    requires forall k :: 0 <= k < |frames| ==> frames[k].1 > 0 && frames[k].2 <= bound
    requires |frames| > 0 && d.y + 9 * |frames| > bound
    ensures DropRecycledWithin(d, frames)
    decreases |frames|
  {
    var f := frames[0];
    if !DropLeaves(d, f.0, Start.config.dy, f.2, f.1) {
      var next := StepDrop(d, f.0, Start.config.dy, f.1, f.2, f.3);
      assert next.y <= bound;
      DropRecycles(next, frames[1..], bound);
    }
  }
}

=== FILE: weather_controller.dfy ===
/**
  The weather controller of `src/graphics/weather.c`: the engine state
  (`data`), `weather_stop`, `set_weather`, the per-frame `update_weather`
  with its lazy allocation and type dispatch, `draw_rain`'s wind and
  lightning, and the climate/month policy `city_weather_update`.
*/
module WeatherController {
  import opened Common
  import opened WeatherElement
  import opened WeatherParticles
  import opened WeatherOverlay
  import opened Wind
  import Lightning

  /** `weather_config`. */
  datatype Config = Config(active: bool, intensity: int, dx: int, dy: int, kind: WeatherType)

  /** The file-scope `data` of weather.c; `wind_speed` is the constant `WindSpeed`. */
  datatype Engine = Engine(
    initialized: bool,
    lightning: Lightning.Flash,
    windAngle: real,
    overlay: Overlay,
    tint: Tint,
    elements: Buffer<Element>,
    config: Config)

  /** The static initialiser of `data`. */
  const Start := Engine(false, Lightning.Idle, 0.0, Overlay(0.0, 1.0, false), NoTint, Null,
                        Config(false, 200, 1, 5, None))

  /**
    What one call of `update_weather` is given: the `CONFIG_UI_DRAW_WEATHER`
    flag, the screen size, `sinf`, and the random values for allocation,
    recycling and lightning.
  */
  datatype Inputs = Inputs(
    drawEnabled: bool,
    width: int,
    height: int,
    sin: Wave,
    seed: nat -> Draws,
    reseed: nat -> Draws,
    bolt: Lightning.Draws)

  /** One frame's effects: the engine afterwards and what was drawn or played. */
  datatype Frame = Frame(engine: Engine, fill: Fill, segments: nat, flashed: bool, thunder: bool)

  /**
    The engine's reachable states: a particle block exists exactly while
    initialised, holds one seeded particle per unit of intensity, and the
    lightning machine and overlay stay in range.
  */
  predicate Valid(s: Engine) {
    && (s.initialized <==> s.elements.Allocated?)
    && (s.initialized ==>
          && s.config.active
          && s.config.kind != None
          && |s.elements.items| == Count(s.config.intensity)
          && WellPlaced(s.elements.items, s.config.kind))
    && Lightning.Valid(s.lightning)
    && InUnit(s.overlay.alpha)
    && (s.overlay.target == 0.0 || s.overlay.target == 1.0)
  }

  lemma StartIsValid()
    ensures Valid(Start)
  {
  }

  /**
    `weather_stop`: deactivate, free the particles, forget initialisation.
    Nothing else changes; it is safe before any allocation.
  */
  function Stop(s: Engine): (r: Engine)
    ensures !r.config.active && r.elements == Null && !r.initialized
    ensures r.lightning == s.lightning && r.windAngle == s.windAngle
    ensures r.overlay == s.overlay && r.tint == s.tint
    ensures r.config.intensity == s.config.intensity && r.config.kind == s.config.kind
    ensures r.config.dx == s.config.dx && r.config.dy == s.config.dy
    ensures Valid(s) ==> Valid(r)
  {
    s.(initialized := false, elements := Null, config := s.config.(active := false))
  }

  /** Stopping twice is stopping once. */
  lemma StopIdempotent(s: Engine)
    ensures Stop(Stop(s)) == Stop(s)
  {
  }

  /**
    `set_weather` exactly as written: it calls `weather_stop` first, which
    clears `active`, so the test for an active-to-inactive transition is
    always false and the fade-out flag is never latched.
  */
  function SetWeatherAsWritten(s: Engine, active: bool, intensity: int, kind: WeatherType): (r: Engine)
    ensures r.overlay.fadeout == s.overlay.fadeout
    ensures r.config == Config(active, intensity, s.config.dx, s.config.dy, kind)
    ensures !r.initialized && r.elements == Null
    ensures r.overlay.target == (if active then 1.0 else 0.0)
    ensures r.overlay.alpha == s.overlay.alpha
    ensures r.lightning == s.lightning && r.windAngle == s.windAngle && r.tint == s.tint
    ensures Valid(s) ==> Valid(r)
  {
    var t := Stop(s);
    var latch := t.config.active && !active;
    t.(overlay := t.overlay.(fadeout := if latch then true else t.overlay.fadeout,
                             target := if active then 1.0 else 0.0),
       config := t.config.(active := active, intensity := intensity, kind := kind))
  }

  /**
    `set_weather` as intended: the transition test reads `active` from
    before the stop. The configuration is stored verbatim, the particles
    are released and the overlay target follows `active`.
  */
  function SetWeather(s: Engine, active: bool, intensity: int, kind: WeatherType): (r: Engine)
    ensures r.config == Config(active, intensity, s.config.dx, s.config.dy, kind)
    ensures !r.initialized && r.elements == Null
    ensures r.overlay.target == 0.0 <==> !active
    ensures r.overlay.target == 1.0 <==> active
    ensures r.overlay.fadeout <==> s.overlay.fadeout || (s.config.active && !active)
    ensures r.overlay.alpha == s.overlay.alpha
    ensures r.lightning == s.lightning && r.windAngle == s.windAngle && r.tint == s.tint
    ensures Valid(s) ==> Valid(r)
  {
    var latch := s.config.active && !active;
    var t := Stop(s);
    t.(overlay := t.overlay.(fadeout := if latch then true else t.overlay.fadeout,
                             target := if active then 1.0 else 0.0),
       config := t.config.(active := active, intensity := intensity, kind := kind))
  }

  /**
    The two versions part exactly on deactivating running weather: only the
    intended one latches the fade-out so the overlay keeps fading visibly.
  */
  lemma FadeoutLatchDiffers(s: Engine, intensity: int, kind: WeatherType)
    requires s.config.active && !s.overlay.fadeout
    ensures !SetWeatherAsWritten(s, false, intensity, kind).overlay.fadeout
    ensures SetWeather(s, false, intensity, kind).overlay.fadeout
  {
  }

  /** `update_weather` stops instead of drawing. */
  predicate Stops(s: Engine, io: Inputs) {
    !io.drawEnabled || s.config.kind == None || !s.config.active
  }

  /** The lazy allocation of `update_weather`: one seeded particle per unit of intensity. */
  function Allocate(s: Engine, io: Inputs): (r: Engine)
    requires io.width > 0 && io.height > 0
    requires s.config.kind != None
    ensures r.initialized && r.elements.Allocated?
    ensures |r.elements.items| == Count(s.config.intensity)
    ensures WellPlaced(r.elements.items, s.config.kind)
    ensures r == s.(initialized := true, elements := r.elements)
  {
    var n := Count(s.config.intensity);
    var items := seq(n, i requires 0 <= i < n => Init(Blank, s.config.kind, io.seed(i), io.width, io.height));
    assert forall i :: 0 <= i < n ==> items[i] == Init(Blank, s.config.kind, io.seed(i), io.width, io.height);
    s.(initialized := true, elements := Allocated(items))
  }

  /**
    `draw_rain`: the wind is steered only below intensity 500; the drops
    move; lightning runs only above intensity 800.
  */
  function DrawRain(s: Engine, io: Inputs, fill: Fill): (r: Frame)
    requires Valid(s) && s.initialized && s.config.kind == Rain
    requires io.width > 0 && io.height > 0
    ensures Valid(r.engine)
    ensures r.engine == s.(windAngle := r.engine.windAngle, config := s.config.(dx := r.engine.config.dx),
                           elements := r.engine.elements, lightning := r.engine.lightning)
    ensures s.config.intensity < CalmLimit ==> (r.engine.windAngle, r.engine.config.dx) == UpdateWind(s.windAngle, io.sin)
    ensures s.config.intensity >= CalmLimit ==> r.engine.config.dx == s.config.dx && r.engine.windAngle == s.windAngle
    ensures r.engine.elements.Allocated? && |r.engine.elements.items| == |s.elements.items|
    ensures r.engine.elements.items
         == RainPass(s.elements.items, s.config.intensity, r.engine.config.dx, io.sin, io.width, io.height, io.reseed).elements
    ensures r.segments == Count(s.config.intensity)
    ensures s.config.intensity <= 800 ==> r.engine.lightning == s.lightning && !r.flashed && !r.thunder
    ensures s.config.intensity > 800 ==>
      && r.engine.lightning == Lightning.Advance(s.lightning, io.bolt).flash
      && r.flashed == Lightning.Advance(s.lightning, io.bolt).flashed
      && r.thunder == Lightning.StormFrame(s.lightning, io.bolt).thunder
    ensures r.engine.overlay == s.overlay && r.engine.tint == s.tint && r.fill == fill
  {
    var intensity := s.config.intensity;
    var wind := if intensity < CalmLimit then UpdateWind(s.windAngle, io.sin) else (s.windAngle, s.config.dx);
    var pass := RainPass(s.elements.items, intensity, wind.1, io.sin, io.width, io.height, io.reseed);
    var moved := s.(windAngle := wind.0, config := s.config.(dx := wind.1), elements := Allocated(pass.elements));
    if intensity > 800 then
      var storm := Lightning.StormFrame(s.lightning, io.bolt);
      Frame(moved.(lightning := storm.tick.flash), fill, pass.segments, storm.tick.flashed, storm.thunder)
    else
      Frame(moved, fill, pass.segments, false, false)
  }

  /**
    `update_weather`: render (and fade) the overlay; stop when weather is
    disabled, of type NONE or inactive; otherwise allocate on first use and
    run the pass of the current type.
  */
  function UpdateWeather(s: Engine, io: Inputs): (r: Frame)
    requires Valid(s) && io.width > 0 && io.height > 0
    ensures Valid(r.engine)
    ensures r.engine.overlay == Fade(s.overlay)
    ensures r.fill.Fill? <==> (s.config.active || Fade(s.overlay).fadeout)
    ensures Stops(s, io) ==>
      && !r.engine.initialized && r.engine.elements == Null && !r.engine.config.active
      && r.segments == 0 && !r.flashed && !r.thunder
    ensures !Stops(s, io) ==>
      && r.engine.initialized
      && |r.engine.elements.items| == Count(s.config.intensity)
      && r.engine.config.active && r.engine.config.kind == s.config.kind
      && r.engine.config.intensity == s.config.intensity
    ensures !Stops(s, io) && s.config.kind == Snow ==> r.segments == 2 * Count(s.config.intensity)
    ensures !Stops(s, io) && s.config.kind != Snow ==> r.segments == Count(s.config.intensity)
    ensures s.config.intensity <= MaxSegments / 2 ==> r.segments <= MaxSegments
    ensures r.flashed || r.thunder ==> s.config.kind == Rain && s.config.intensity > 800
    ensures var shade := Render(s.overlay, s.tint, s.config.active, s.config.kind, s.config.intensity);
      r.fill == shade.fill && r.engine.tint == shade.tint
    ensures Stops(s, io) ==> r.engine == Stop(s).(overlay := r.engine.overlay, tint := r.engine.tint)
    ensures !Stops(s, io) ==>
      var block := if s.initialized then s.elements.items else Allocate(s, io).elements.items;
      && (s.config.kind == Snow ==>
            r.engine.elements.items == SnowPass(block, s.config.intensity, io.sin, io.width, io.height, io.reseed).elements)
      && (s.config.kind == Sand ==>
            r.engine.elements.items == SandPass(block, s.config.intensity, io.sin, io.width, io.height, io.reseed).elements)
      && (s.config.kind == Rain ==>
            r.engine.elements.items
              == RainPass(block, s.config.intensity, r.engine.config.dx, io.sin, io.width, io.height, io.reseed).elements)
    ensures !Stops(s, io) && s.config.kind != Rain ==>
      r.engine == s.(initialized := true, overlay := r.engine.overlay, tint := r.engine.tint, elements := r.engine.elements)
    ensures !Stops(s, io) && s.config.kind == Rain ==>
      && r.engine.config == s.config.(dx := r.engine.config.dx)
      && (s.config.intensity < CalmLimit ==> (r.engine.windAngle, r.engine.config.dx) == UpdateWind(s.windAngle, io.sin))
      && (s.config.intensity >= CalmLimit ==> r.engine.config.dx == s.config.dx && r.engine.windAngle == s.windAngle)
      && (s.config.intensity <= 800 ==> r.engine.lightning == s.lightning)
      && (s.config.intensity > 800 ==>
            && r.engine.lightning == Lightning.Advance(s.lightning, io.bolt).flash
            && r.flashed == Lightning.Advance(s.lightning, io.bolt).flashed
            && r.thunder == Lightning.StormFrame(s.lightning, io.bolt).thunder)
  {
    var shade := Render(s.overlay, s.tint, s.config.active, s.config.kind, s.config.intensity);
    var lit := s.(overlay := shade.overlay, tint := shade.tint);
    if Stops(s, io) then
      Frame(Stop(lit), shade.fill, 0, false, false)
    else
      var ready := if !lit.initialized then Allocate(lit, io) else lit;
      var es := ready.elements.items;
      if s.config.kind == Snow then
        var pass := SnowPass(es, s.config.intensity, io.sin, io.width, io.height, io.reseed);
        Frame(ready.(elements := Allocated(pass.elements)), shade.fill, pass.segments, false, false)
      else if s.config.kind == Sand then
        var pass := SandPass(es, s.config.intensity, io.sin, io.width, io.height, io.reseed);
        Frame(ready.(elements := Allocated(pass.elements)), shade.fill, pass.segments, false, false)
      else
        DrawRain(ready, io, shade.fill)
  }

  /**
    The `set_weather`-then-`update_weather` life cycle: the first frame of
    active weather allocates exactly `intensity` particles.
  */
  lemma SetThenUpdateAllocates(s: Engine, intensity: nat, kind: WeatherType, io: Inputs)
    requires Valid(s) && io.width > 0 && io.height > 0 && io.drawEnabled
    requires kind != None
    ensures UpdateWeather(SetWeatherAsWritten(s, true, intensity, kind), io).engine.initialized
    ensures |UpdateWeather(SetWeatherAsWritten(s, true, intensity, kind), io).engine.elements.items| == intensity
  {
  }

  /**
    With `set_weather` as written, deactivating running weather frees every
    particle on the next frame, draws none, and drops the overlay at once:
    nothing is left to fade it out.
  */
  lemma DeactivateThenUpdateDropsOverlay(s: Engine, io: Inputs)
    requires Valid(s) && io.width > 0 && io.height > 0
    requires s.config.active && !s.overlay.fadeout
    ensures var f := UpdateWeather(SetWeatherAsWritten(s, false, 0, None), io);
      && f.engine.elements == Null && f.segments == 0
      && f.fill.NoFill?
  {
  }

  /**
    With the intended `set_weather`, deactivating running weather frees every
    particle on the next frame, draws none, and keeps drawing the fading overlay.
  */
  lemma IntendedDeactivateThenUpdateFades(s: Engine, io: Inputs)
    requires Valid(s) && io.width > 0 && io.height > 0
    requires s.config.active && s.overlay.alpha > 0.01
    ensures var f := UpdateWeather(SetWeather(s, false, 0, None), io);
      && f.engine.elements == Null && f.segments == 0
      && f.fill.Fill? && f.engine.overlay.alpha < s.overlay.alpha
  {
  }

  // ----- city_weather_update -----

  /** A value of `random_between_from_stdlib(0, 99)`. */
  type Percent = n: int | 0 <= n <= 99
  /** A value of `random_between_from_stdlib(100, 1000)`. */
  type RainAmount = n: int | 100 <= n <= 1000 witness 100
  /** A value of `random_between_from_stdlib(1000, 5000)`. */
  type SnowAmount = n: int | 1000 <= n <= 5000 witness 1000

  /** The scenario climates; only the desert one is treated specially. */
  datatype Climate = Central | Northern | Desert

  /** The random values `city_weather_update` may consume. */
  datatype RollDraws = RollDraws(
    chance: Percent,
    desertChance: Percent,
    typeRoll: nat,
    rainAmount: RainAmount,
    snowAmount: SnowAmount)

  /** The arguments `city_weather_update` passes to `set_weather`. */
  datatype Roll = Roll(active: bool, intensity: int, kind: WeatherType)

  const DesertIntensity := 5000

  /** `chance_percent`: compare one draw of 0..99 with `percent`. */
  function ChancePercent(percent: int, d: Percent): (r: bool)
    ensures percent <= 0 ==> !r
    ensures percent >= 100 ==> r
  {
    d < percent
  }

  /** Exactly `percent` of the 100 equally likely draws come out true. */
  lemma {:induction false} ChancePercentOdds(percent: int)
    requires 0 <= percent <= 100
    ensures |set d: Percent | ChancePercent(percent, d)| == percent
  {
    if percent > 0 {
      var last: Percent := percent - 1;
      ChancePercentOdds(last);
      assert (set d: Percent | ChancePercent(percent, d))
          == (set d: Percent | ChancePercent(last, d)) + {last};
    }
  }

  /** Months 10, 11, 0, 1 and 2 (November to March) may roll snow. */
  predicate Winter(month: int) {
    month == 10 || month == 11 || month == 0 || month == 1 || month == 2
  }

  /**
    The decision of `city_weather_update`: a 10% sandstorm at full intensity
    in the desert; elsewhere 20% weather, rain of 100..1000 or (only in
    winter, on a coin flip) snow of 1000..5000; no weather is NONE at 0.
  */
  function RollWeather(month: int, climate: Climate, d: RollDraws): (r: Roll)
    ensures !r.active <==> r.kind == None
    ensures !r.active ==> r.intensity == 0
    ensures climate == Desert ==> (r.kind == Sand || r.kind == None)
    ensures climate == Desert && r.active ==> r.intensity == DesertIntensity
    ensures climate == Desert ==> (r.active <==> d.desertChance < 10)
    ensures climate != Desert ==> (r.active <==> d.chance < 20)
    ensures climate != Desert && !Winter(month) ==> (r.kind == Rain || r.kind == None)
    ensures r.kind == Rain ==> 100 <= r.intensity <= 1000
    ensures r.kind == Snow ==> Winter(month) && 1000 <= r.intensity <= 5000
    ensures climate != Desert && r.active && Winter(month) ==> (r.kind == Snow <==> d.typeRoll % 2 != 0)
    ensures r.kind == Rain ==> r.intensity == d.rainAmount
    ensures r.kind == Snow ==> r.intensity == d.snowAmount
    ensures 0 <= r.intensity <= MaxSegments / 2
  {
    var active := ChancePercent(20, d.chance);
    var pick :=
      if climate == Desert then
        Roll(ChancePercent(10, d.desertChance), DesertIntensity, Sand)
      else
        var kind := if Winter(month) && d.typeRoll % 2 != 0 then Snow else Rain;
        Roll(active, if kind == Rain then d.rainAmount else d.snowAmount, kind);
    if !pick.active then Roll(false, 0, None) else pick
  }

  /**
    Outside the desert every draw of weather can be rain, and in winter the
    coin flip alone decides between rain and snow; in the desert only sand
    is ever rolled.
  */
  lemma WinterCoinPicksSnow(month: int, d: RollDraws)
    requires Winter(month) && d.chance < 20
    ensures RollWeather(month, Central, d.(typeRoll := 1)) == Roll(true, d.snowAmount, Snow)
    ensures RollWeather(month, Central, d.(typeRoll := 0)) == Roll(true, d.rainAmount, Rain)
    ensures RollWeather(month, Desert, d).kind != Snow && RollWeather(month, Desert, d).kind != Rain
  {
  }

  /** `city_weather_update`: roll and pass the result to `set_weather` as written. */
  function CityWeatherUpdate(s: Engine, month: int, climate: Climate, d: RollDraws): (r: Engine)
    ensures var roll := RollWeather(month, climate, d);
      r.config.active == roll.active && r.config.intensity == roll.intensity && r.config.kind == roll.kind
    ensures r.config.dx == s.config.dx && r.config.dy == s.config.dy
    ensures !r.initialized && r.elements == Null
    ensures r.overlay.fadeout == s.overlay.fadeout
    ensures r.overlay.target == (if RollWeather(month, climate, d).active then 1.0 else 0.0)
    ensures r.overlay.alpha == s.overlay.alpha
    ensures r.lightning == s.lightning && r.windAngle == s.windAngle && r.tint == s.tint
    ensures Valid(s) ==> Valid(r)
  {
    var roll := RollWeather(month, climate, d);
    SetWeatherAsWritten(s, roll.active, roll.intensity, roll.kind)
  }

  /** `city_weather_update` over the intended `set_weather`: a roll of no weather latches the fade-out. */
  function IntendedCityWeatherUpdate(s: Engine, month: int, climate: Climate, d: RollDraws): (r: Engine)
    ensures var roll := RollWeather(month, climate, d);
      r.config.active == roll.active && r.config.intensity == roll.intensity && r.config.kind == roll.kind
    ensures !r.initialized && r.elements == Null
    ensures r.overlay.fadeout <==> s.overlay.fadeout || (s.config.active && !RollWeather(month, climate, d).active)
    ensures Valid(s) ==> Valid(r)
  {
    var roll := RollWeather(month, climate, d);
    SetWeather(s, roll.active, roll.intensity, roll.kind)
  }

  /**
    Rolled weather never overflows `line_buffer`: snow, the only type with
    two segments per particle, is capped at 5000 particles.
  */
  lemma RolledWeatherFitsLineBuffer(s: Engine, month: int, climate: Climate, d: RollDraws, io: Inputs)
    requires Valid(s) && io.width > 0 && io.height > 0
    ensures UpdateWeather(CityWeatherUpdate(s, month, climate, d), io).segments <= MaxSegments
  {
  }
}

=== FILE: weather_element.dfy ===
/**
  Particles of `src/graphics/weather.c` and their initialiser
  `init_weather_element`. Positions are `float` in C and reals here; every
  random value is an explicit field of `Draws`.
*/
module WeatherElement {
  import opened Common

  /** The weather types `weather.c` dispatches on (its header lists only three). */
  datatype WeatherType = None | Rain | Snow | Sand

  /**
    `weather_element`: one particle. Each weather type uses only some of the
    fields; the others keep whatever the slot held before.
  */
  datatype Element = Element(
    x: real,
    y: real,
    length: int,
    speed: int,
    windVariation: real,
    driftOffset: real,
    driftDirection: int,
    offset: real)

  /** Stand-in for the indeterminate contents of a fresh `malloc` block. */
  const Blank := Element(0.0, 0.0, 0, 0, 0.0, 0.0, 0, 0.0)

  const DriftRight := 1
  const DriftLeft := -1

  /** A value of `random_between_from_stdlib(0, 1000)`. */
  type Spread = n: int | 0 <= n <= 1000

  /**
    The random values `init_weather_element` consumes, in call order:
    `x`, `y`, then up to three `random_from_stdlib()` values for the
    type-specific fields, and the sand offset.
  */
  datatype Draws = Draws(x: nat, y: nat, first: nat, second: nat, third: nat, spread: Spread)

  /** The attribute ranges a freshly seeded particle of `kind` has. */
  predicate Seeded(e: Element, kind: WeatherType) {
    match kind
    case Rain =>
      && 10 <= e.length <= 19
      && 4 <= e.speed <= 8
      && -0.75 <= e.windVariation <= 0.735
    case Snow =>
      && 0.0 <= e.driftOffset <= 99.0
      && (e.speed == 1 || e.speed == 2)
      && (e.driftDirection == DriftRight || e.driftDirection == DriftLeft)
    case Sand =>
      && 1 <= e.speed <= 3
      && 0.0 <= e.offset <= 1000.0
    case None => true
  }

  /** `e` and `r` agree on every field the weather type `kind` does not seed. */
  predicate KeepsForeignFields(e: Element, r: Element, kind: WeatherType) {
    match kind
    case Rain =>
      r == e.(x := r.x, y := r.y, length := r.length, speed := r.speed, windVariation := r.windVariation)
    case Snow =>
      r == e.(x := r.x, y := r.y, driftOffset := r.driftOffset, speed := r.speed, driftDirection := r.driftDirection)
    case Sand =>
      r == e.(x := r.x, y := r.y, speed := r.speed, offset := r.offset)
    case None =>
      r == e.(x := r.x, y := r.y)
  }

  /**
    `init_weather_element`: a uniform on-screen position and fresh
    type-specific attributes. The sand speed is computed in floating point
    as 1.5 + k/50 but stored in the `int` field, so it is truncated.
  */
  function Init(e: Element, kind: WeatherType, d: Draws, width: int, height: int): (r: Element)
    requires width > 0 && height > 0
    ensures 0.0 <= r.x < width as real && 0.0 <= r.y < height as real
    ensures Seeded(r, kind)
    ensures KeepsForeignFields(e, r, kind)
  {
    var x := (d.x % width) as real;
    var y := (d.y % height) as real;
    match kind
    case Rain =>
      e.(x := x, y := y,
         length := 10 + d.first % 10,
         speed := 4 + d.second % 5,
         windVariation := ((d.third % 100) as real / 100.0 - 0.5) * 1.5)
    case Snow =>
      e.(x := x, y := y,
         driftOffset := (d.first % 100) as real,
         speed := 1 + d.second % 2,
         driftDirection := if d.third % 2 == 0 then DriftRight else DriftLeft)
    case Sand =>
      e.(x := x, y := y,
         speed := Trunc(1.5 + (d.first % 100) as real / 50.0),
         offset := d.spread as real)
    case None =>
      e.(x := x, y := y)
  }

  /**
    The sand speed takes only the three values 1, 2 and 3: a quarter of the
    draws give 1, half give 2 and a quarter give 3.
  */
  lemma SandSpeedIsTruncated(e: Element, d: Draws, width: int, height: int)
    requires width > 0 && height > 0
    ensures var k := d.first % 100;
      Init(e, Sand, d, width, height).speed == (if k < 25 then 1 else if k < 75 then 2 else 3)
  {
  }
}

=== FILE: weather_overlay.dfy ===
/**
  The full-screen weather tint of `src/graphics/weather.c`: the fader
  `update_overlay_alpha`, the decision and alpha of `render_weather_overlay`,
  and the ARGB packing `apply_alpha`. `float` values are reals here.
*/
module WeatherOverlay {
  import opened Common
  import opened WeatherElement

  /** `overlay_alpha`, `overlay_target` and `overlay_fadeout`. */
  datatype Overlay = Overlay(alpha: real, target: real, fadeout: bool)

  /** The colour last chosen for the overlay (`overlay_color`; 0 before any). */
  datatype Tint = NoTint | RainTint | SnowTint | SandTint

  /** The overlay fill emitted this frame, if any, with its alpha byte. */
  datatype Fill = NoFill | Fill(tint: Tint, alpha: int)

  /** What `render_weather_overlay` leaves behind and draws. */
  datatype Shade = Shade(overlay: Overlay, tint: Tint, fill: Fill)

  /** Alpha change per frame (`speed` in `update_overlay_alpha`). */
  const FadeStep: real := 0.01

  function Distance(a: real, b: real): real {
    if a >= b then a - b else b - a
  }

  /** `a` lies on the closed segment from `from` to `to`. */
  predicate Between(a: real, from: real, to: real) {
    (from <= a <= to) || (to <= a <= from)
  }

  /** The downward step would go below the target. */
  predicate Undershoots(o: Overlay) {
    o.alpha > o.target && o.alpha - FadeStep < o.target
  }

  predicate InUnit(a: real) {
    0.0 <= a <= 1.0
  }

  /**
    `update_overlay_alpha`: one step of 0.01 toward the target, clamped at
    the target. The fade-out flag is cleared only when a downward step is
    clamped, not when it lands on the target exactly.
  */
  function Fade(o: Overlay): (r: Overlay)
    ensures r.target == o.target
    ensures Between(r.alpha, o.alpha, o.target)
    ensures Distance(r.alpha, o.target)
      == (if Distance(o.alpha, o.target) > FadeStep then Distance(o.alpha, o.target) - FadeStep else 0.0)
    ensures r.fadeout == (o.fadeout && !Undershoots(o))
    ensures InUnit(o.alpha) && InUnit(o.target) ==> InUnit(r.alpha)
  {
    if o.alpha < o.target then
      var a := o.alpha + FadeStep;
      o.(alpha := if a > o.target then o.target else a)
    else if o.alpha > o.target then
      var a := o.alpha - FadeStep;
      if a < o.target then o.(alpha := o.target, fadeout := false) else o.(alpha := a)
    else
      o
  }

  /** `n` consecutive fader steps. */
  function FadeN(o: Overlay, n: nat): (r: Overlay)
    decreases n
  {
    if n == 0 then o else FadeN(Fade(o), n - 1)
  }

  /** A fader already at its target stays there, flag and all. */
  lemma FadeAtTargetIsIdentity(o: Overlay)
    requires o.alpha == o.target
    ensures Fade(o) == o
  {
  }

  /** The alpha reaches its target within ⌈distance / 0.01⌉ frames and stays. */
  lemma {:induction false} FadeConverges(o: Overlay, n: nat)
    requires Distance(o.alpha, o.target) <= n as real * FadeStep
    ensures FadeN(o, n).alpha == o.target
    ensures FadeN(o, n).target == o.target
    decreases n
  {
    if n > 0 {
      var next := Fade(o);
      assert Distance(next.alpha, o.target) <= (n - 1) as real * FadeStep;
      FadeConverges(next, n - 1);
    }
  }

  /**
    The fade-out flag is never cleared when the alpha starts on a multiple
    of the step above a zero target: every step lands exactly, so even the
    full fade from 1.0 ends at alpha 0 with the flag still set.
  */
  lemma {:induction false} FadeoutStuckOnExactLanding(k: nat, n: nat)
    ensures FadeN(Overlay(k as real * FadeStep, 0.0, true), n).fadeout
    decreases n
  {
    var o := Overlay(k as real * FadeStep, 0.0, true);
    if n > 0 {
      if k == 0 {
        assert Fade(o) == o;
        FadeoutStuckOnExactLanding(0, n - 1);
      } else {
        assert Fade(o) == Overlay((k - 1) as real * FadeStep, 0.0, true);
        FadeoutStuckOnExactLanding(k - 1, n - 1);
      }
    }
  }

  /** `alpha_factor`: full for storms, partial for snow and moderate rain, none for light rain. */
  function AlphaFactor(kind: WeatherType, intensity: int): (f: real)
    ensures f == 0.0 || f == 0.2 || f == 0.4
    ensures kind == Rain && intensity < 800 ==> f == 0.0
    ensures kind == Rain && 800 <= intensity < 900 ==> f == 0.2
    ensures kind == Snow ==> f == 0.2
    ensures (kind == Sand || kind == None || (kind == Rain && intensity >= 900)) ==> f == 0.4
  {
    var f := if kind == Snow || (kind == Rain && intensity < 900) then 0.2 else 0.4;
    if kind == Rain && intensity < 800 then 0.0 else f
  }

  /** The alpha byte: `(uint8_t)(fminf(factor * alpha, 1) * 255)`. */
  function AlphaByte(factor: real, alpha: real): (b: int)
    requires factor == 0.0 || factor == 0.2 || factor == 0.4
    requires InUnit(alpha)
    ensures 0 <= b <= 102
    ensures factor == 0.0 ==> b == 0
  {
    var level := factor * alpha;
    assert 0.0 <= level <= 0.4 by {
      if factor == 0.2 {
        assert level == 0.2 * alpha;
      } else if factor == 0.4 {
        assert level == 0.4 * alpha;
      }
    }
    Trunc((if level < 1.0 then level else 1.0) * 255.0)
  }

  /** The overlay colour keeps its last value when the weather type is NONE. */
  function TintFor(kind: WeatherType, previous: Tint): (t: Tint)
    ensures kind == None ==> t == previous
    ensures kind == Rain ==> t == RainTint
    ensures kind == Snow ==> t == SnowTint
    ensures kind == Sand ==> t == SandTint
  {
    match kind
    case Rain => RainTint
    case Snow => SnowTint
    case Sand => SandTint
    case None => previous
  }

  /** Different weather types never share an overlay colour, whatever was shown before. */
  lemma TintsDistinct(a: WeatherType, b: WeatherType, previous: Tint)
    requires a != None && b != None && a != b
    ensures TintFor(a, previous) != TintFor(b, previous) && TintFor(a, previous) != NoTint
  {
  }

  /**
    `render_weather_overlay`: the fader always steps; a fill is drawn only
    while weather is active or a fade-out is latched.
  */
  function Render(o: Overlay, tint: Tint, active: bool, kind: WeatherType, intensity: int): (r: Shade)
    requires InUnit(o.alpha) && InUnit(o.target)
    ensures r.overlay == Fade(o)
    ensures r.fill.Fill? <==> (active || r.overlay.fadeout)
    ensures r.fill.NoFill? ==> r.tint == tint
    ensures r.fill.Fill? ==> r.fill.tint == r.tint && 0 <= r.fill.alpha <= 102
    ensures r.fill.Fill? && kind == Rain && intensity < 800 ==> r.fill.alpha == 0
    ensures kind == None ==> r.tint == tint
    ensures r.fill.Fill? ==> r.tint == TintFor(kind, tint)
    ensures r.fill.Fill? ==> r.fill.alpha == AlphaByte(AlphaFactor(kind, intensity), r.overlay.alpha)
  {
    var faded := Fade(o);
    if !faded.fadeout && !active then
      Shade(faded, tint, NoFill)
    else
      var t := TintFor(kind, tint);
      Shade(faded, t, Fill(t, AlphaByte(AlphaFactor(kind, intensity), faded.alpha)))
  }

  /**
    Once inactive weather has faded out and the fade-out flag is clear, the
    overlay stays hidden on every later frame and keeps its colour.
  */
  lemma {:induction false} FadedOverlayStaysHidden(o: Overlay, tint: Tint, kind: WeatherType, intensity: int, n: nat)
    requires InUnit(o.alpha) && InUnit(o.target) && !o.fadeout
    ensures InUnit(FadeN(o, n).alpha) && InUnit(FadeN(o, n).target) && !FadeN(o, n).fadeout
    ensures Render(FadeN(o, n), tint, false, kind, intensity) == Shade(FadeN(o, n + 1), tint, NoFill)
    decreases n
  {
    if n > 0 {
      FadedOverlayStaysHidden(Fade(o), tint, kind, intensity, n - 1);
    }
  }
}

=== FILE: weather_particles.dfy ===
/**
  The per-frame particle passes of `src/graphics/weather.c`: `draw_snow`,
  `draw_sandstorm` and the particle loop of `draw_rain`.
  Only the motion, the recycle rules and the number of line segments written
  to `line_buffer` are modelled; the drawing itself is left out.
*/
module WeatherParticles {
  import opened Common
  import opened WeatherElement

  /** `MAX_WEATHER_SEGMENTS`: capacity of the shared `line_buffer`. */
  const MaxSegments := 10000

  /** `draw_rain` steers the wind only below this intensity. */
  const CalmLimit := 500

  /** Everything outside the particle that one particle step reads. */
  datatype Scene = Scene(sin: Wave, width: int, height: int, reseed: Draws)

  /** `draw_rain`'s per-frame horizontal wind and base fall speed. */
  datatype Gust = Gust(dx: int, base: int)

  /** Result of one pass: the particles afterwards and the segments written. */
  datatype Pass = Pass(elements: seq<Element>, segments: nat)

  predicate ValidScene(sc: Scene) {
    sc.width > 0 && sc.height > 0
  }

  predicate OnScreen(e: Element, width: int, height: int) {
    0.0 <= e.x < width as real && 0.0 <= e.y < height as real
  }

  /** The recycle test shared by `draw_snow` and `draw_rain`. */
  predicate OffScreen(e: Element, width: int, height: int) {
    e.y >= height as real || e.x <= 0.0 || e.x >= width as real
  }

  /** Every particle carries its type's attributes and a non-negative position. */
  predicate WellPlaced(es: seq<Element>, kind: WeatherType) {
    forall i :: 0 <= i < |es| ==> Seeded(es[i], kind) && es[i].x >= 0.0 && es[i].y >= 0.0
  }

  /** The scenes a pass hands to its particles, one reseed draw per slot. */
  function SceneAt(sin: Wave, width: int, height: int, reseed: nat -> Draws, i: nat): Scene {
    Scene(sin, width, height, reseed(i))
  }

  // ----- rain speed -----

  /** `base_speed` of `draw_rain`: 3 plus wind strength plus a third of a drop per 100. */
  function BaseSpeed(dx: int, intensity: int): (b: int)
    ensures intensity >= 0 ==> b >= 3 + Abs(dx)
  {
    3 + Abs(dx) + CDiv(intensity, 300)
  }

  // ----- snow -----

  function SnowMove(e: Element, sc: Scene): Element {
    var drift := sc.sin((e.y + e.driftOffset) * 0.02);
    e.(x := e.x + drift * 0.5 * e.driftDirection as real, y := e.y + e.speed as real)
  }

  predicate SnowLeaves(e: Element, sc: Scene) {
    OffScreen(SnowMove(e, sc), sc.width, sc.height)
  }

  /**
    One snowflake of `draw_snow`: drift sideways with the wave, fall by its
    speed, and if it left the screen reseed it at the top.
  */
  function StepSnowflake(e: Element, sc: Scene): (r: Element)
    requires ValidScene(sc)
    requires Seeded(e, Snow) && e.y >= 0.0
    ensures Seeded(r, Snow)
    ensures OnScreen(r, sc.width, sc.height)
    ensures SnowLeaves(e, sc) ==> r.y == 0.0
    ensures !SnowLeaves(e, sc) ==> r.y >= e.y + 1.0 && r.driftOffset == e.driftOffset
  {
    var m := SnowMove(e, sc);
    if OffScreen(m, sc.width, sc.height) then Init(m, Snow, sc.reseed, sc.width, sc.height).(y := 0.0) else m
  }

  /** The particle loop of `draw_snow`: two segments (a small cross) per flake. */
  function SnowPass(es: seq<Element>, intensity: int, sin: Wave, width: int, height: int, reseed: nat -> Draws): (r: Pass)
    requires width > 0 && height > 0
    requires |es| == Count(intensity) && WellPlaced(es, Snow)
    ensures |r.elements| == |es| && WellPlaced(r.elements, Snow)
    ensures forall i :: 0 <= i < |es| ==> r.elements[i] == StepSnowflake(es[i], SceneAt(sin, width, height, reseed, i))
    ensures forall i :: 0 <= i < |es| ==> OnScreen(r.elements[i], width, height)
    ensures r.segments == 2 * Count(intensity)
  {
    var out := seq(|es|, i requires 0 <= i < |es| => StepSnowflake(es[i], SceneAt(sin, width, height, reseed, i)));
    Pass(out, 2 * |es|)
  }

  /** The snowflake is reseeded within the given frames. */
  predicate SnowflakeRecycledWithin(e: Element, scenes: seq<Scene>)
    requires Seeded(e, Snow) && e.y >= 0.0
    requires forall sc :: sc in scenes ==> ValidScene(sc)
    decreases |scenes|
  {
    && |scenes| > 0
    && (|| SnowLeaves(e, scenes[0])
        || SnowflakeRecycledWithin(StepSnowflake(e, scenes[0]), scenes[1..]))
  }

  /**
    A snowflake falls at least one pixel per frame, so on screens at most
    `bound` high it is reseeded within `bound` frames, however it drifts.
  */
  lemma {:induction false} SnowflakeRecycles(e: Element, scenes: seq<Scene>, bound: real)
    requires Seeded(e, Snow) && e.y >= 0.0
    requires forall sc :: sc in scenes ==> ValidScene(sc) && sc.height as real <= bound
    requires |scenes| > 0 && e.y + |scenes| as real >= bound
    ensures SnowflakeRecycledWithin(e, scenes)
    decreases |scenes|
  {
    if !SnowLeaves(e, scenes[0]) {
      var next := StepSnowflake(e, scenes[0]);
      assert next.y < bound;
      SnowflakeRecycles(next, scenes[1..], bound);
    }
  }

  // ----- sand -----

  function SandMove(e: Element, sc: Scene): Element {
    var wave := sc.sin((e.y + e.offset) * 0.03);
    e.(x := e.x + e.speed as real + wave)
  }

  predicate SandLeaves(e: Element, sc: Scene) {
    SandMove(e, sc).x > sc.width as real
  }

  /**
    One grain of `draw_sandstorm`: blow right by speed plus wave; past the
    right edge it is reseeded at the left edge (only the right edge is tested).
  */
  function StepGrain(e: Element, sc: Scene): (r: Element)
    requires ValidScene(sc)
    requires Seeded(e, Sand) && e.x >= 0.0 && e.y >= 0.0
    ensures Seeded(r, Sand) && r.x >= 0.0 && r.y >= 0.0
    ensures SandLeaves(e, sc) ==> r.x == 0.0 && r.y < sc.height as real
    ensures !SandLeaves(e, sc) ==> r.x >= e.x && r.x <= sc.width as real && r.y == e.y
  {
    var m := SandMove(e, sc);
    if m.x > sc.width as real then Init(m, Sand, sc.reseed, sc.width, sc.height).(x := 0.0) else m
  }

  /** The particle loop of `draw_sandstorm`: one segment per grain. */
  function SandPass(es: seq<Element>, intensity: int, sin: Wave, width: int, height: int, reseed: nat -> Draws): (r: Pass)
    requires width > 0 && height > 0
    requires |es| == Count(intensity) && WellPlaced(es, Sand)
    ensures |r.elements| == |es| && WellPlaced(r.elements, Sand)
    ensures forall i :: 0 <= i < |es| ==> r.elements[i] == StepGrain(es[i], SceneAt(sin, width, height, reseed, i))
    ensures r.segments == Count(intensity)
  {
    var out := seq(|es|, i requires 0 <= i < |es| => StepGrain(es[i], SceneAt(sin, width, height, reseed, i)));
    Pass(out, |es|)
  }

  /** A sine stand-in that is -1 everywhere. */
  function Trough(a: real): real {
    -1.0
  }

  /**
    Because the sand speed is truncated to an integer, a grain of speed 1
    whose wave sits at -1 does not move at all, frame after frame, and is
    never reseeded: unlike rain and snow, sand has no recycling guarantee.
  */
  lemma GrainCanStall(e: Element, width: int, height: int, reseed: Draws)
    requires width > 0 && height > 0
    requires Seeded(e, Sand) && e.speed == 1 && 0.0 <= e.x <= width as real && e.y >= 0.0
    ensures !SandLeaves(e, Scene(Trough, width, height, reseed))
    ensures StepGrain(e, Scene(Trough, width, height, reseed)) == e
  {
  }

  // ----- rain -----

  function RainMove(e: Element, g: Gust, sc: Scene): Element {
    var vx := g.dx as real + e.windVariation;
    var x := e.x + vx;
    var dy := g.base as real + e.speed as real + sc.sin((x + e.y) * 0.05) * 0.5;
    e.(x := x, y := e.y + dy)
  }

  predicate RainLeaves(e: Element, g: Gust, sc: Scene) {
    OffScreen(RainMove(e, g, sc), sc.width, sc.height)
  }

  /**
    One drop of `draw_rain`: move by the wind plus the drop's own variation,
    fall by base speed plus its speed plus a small wobble, and reseed at
    the top when it left the screen.
  */
  function StepDrop(e: Element, g: Gust, sc: Scene): (r: Element)
    requires ValidScene(sc) && g.base >= 3
    requires Seeded(e, Rain) && e.y >= 0.0
    ensures Seeded(r, Rain)
    ensures OnScreen(r, sc.width, sc.height)
    ensures RainLeaves(e, g, sc) ==> r.y == 0.0
    ensures !RainLeaves(e, g, sc) ==> r.y >= e.y + 6.5 && r.length == e.length
  {
    var m := RainMove(e, g, sc);
    if OffScreen(m, sc.width, sc.height) then Init(m, Rain, sc.reseed, sc.width, sc.height).(y := 0.0) else m
  }

  /** The particle loop of `draw_rain`: one segment per drop. */
  function RainPass(es: seq<Element>, intensity: int, dx: int, sin: Wave, width: int, height: int, reseed: nat -> Draws): (r: Pass)
    requires width > 0 && height > 0
    requires |es| == Count(intensity) && WellPlaced(es, Rain)
    ensures |r.elements| == |es| && WellPlaced(r.elements, Rain)
    ensures forall i :: 0 <= i < |es| ==>
      r.elements[i] == StepDrop(es[i], Gust(dx, BaseSpeed(dx, intensity)), SceneAt(sin, width, height, reseed, i))
    ensures forall i :: 0 <= i < |es| ==> OnScreen(r.elements[i], width, height)
    ensures r.segments == Count(intensity)
  {
    var g := Gust(dx, BaseSpeed(dx, intensity));
    var out := seq(|es|, i requires 0 <= i < |es| => StepDrop(es[i], g, SceneAt(sin, width, height, reseed, i)));
    Pass(out, |es|)
  }

  /** The drop is reseeded within the given frames. */
  predicate DropRecycledWithin(e: Element, frames: seq<(Gust, Scene)>)
    requires Seeded(e, Rain) && e.y >= 0.0
    requires forall f :: f in frames ==> ValidScene(f.1) && f.0.base >= 3
    decreases |frames|
  {
    && |frames| > 0
    && (|| RainLeaves(e, frames[0].0, frames[0].1)
        || DropRecycledWithin(StepDrop(e, frames[0].0, frames[0].1), frames[1..]))
  }

  /**
    A drop falls at least 6.5 pixels per frame (base speed 3, own speed 4,
    wobble at most 0.5), so on screens at most `bound` high it is reseeded
    within ⌈bound / 6.5⌉ frames, whatever the wind does.
  */
  lemma {:induction false} DropRecycles(e: Element, frames: seq<(Gust, Scene)>, bound: real)
    requires Seeded(e, Rain) && e.y >= 0.0
    requires forall f :: f in frames ==> ValidScene(f.1) && f.0.base >= 3 && f.1.height as real <= bound
    requires |frames| > 0 && e.y + 6.5 * |frames| as real >= bound
    ensures DropRecycledWithin(e, frames)
    decreases |frames|
  {
    if !RainLeaves(e, frames[0].0, frames[0].1) {
      var next := StepDrop(e, frames[0].0, frames[0].1);
      assert next.y < bound;
      DropRecycles(next, frames[1..], bound);
    }
  }

  /**
    Snow, the only pass writing two segments per particle, fits the
    10000-entry `line_buffer` exactly up to 5000 flakes.
  */
  lemma SnowSegmentsFit(es: seq<Element>, intensity: int, sin: Wave, width: int, height: int, reseed: nat -> Draws)
    requires width > 0 && height > 0
    requires |es| == Count(intensity) && WellPlaced(es, Snow)
    ensures SnowPass(es, intensity, sin, width, height, reseed).segments <= MaxSegments <==> intensity <= MaxSegments / 2
  {
  }
}

=== FILE: wind.dfy ===
/**
  The wind model shared by `src/graphics/weather.c` and `src/graphics/rain.c`
  (`update_wind`): an angle that grows by a constant step every call and a
  horizontal drift of `(int)(2 * sinf(angle))`.
*/
module Wind {
  import opened Common

  /** `wind_speed`: the constant angle increment. */
  const WindSpeed: real := 0.05

  /** `update_wind`: the new angle and the new drift `dx`. */
  function UpdateWind(angle: real, sin: Wave): (r: (real, int))
    ensures r.0 == angle + WindSpeed
    ensures -2 <= r.1 <= 2
    ensures 2.0 * sin(r.0) >= 0.0 ==> 0 <= r.1 && r.1 as real <= 2.0 * sin(r.0) < r.1 as real + 1.0
    ensures 2.0 * sin(r.0) < 0.0 ==> r.1 <= 0 && r.1 as real - 1.0 < 2.0 * sin(r.0) <= r.1 as real
    ensures r.1 == 0 <==> -1.0 < 2.0 * sin(r.0) < 1.0
  {
    var a := angle + WindSpeed;
    (a, Trunc(2.0 * sin(a)))
  }
}

=== FILE: wrappers.dfy ===
/** A value that may be absent. */
module Wrappers {
  datatype Option<T> = None | Some(value: T)
}
